=== FILE: README.md ===
# NUnit → TestLink result exporter, modelled in Dafny

The NUnit TestLink adapter is an NUnit add-in. When a test run finishes, it walks NUnit's
result tree. For every test case whose fixture class carries a `TestLinkFixture`
configuration, it reports the outcome to a TestLink server over XML-RPC. Its core is
`TestLinkAdaptor`, which does three things:

- it holds the connection data and probes the server when that data changes;
- it resolves a selection into the numeric ids TestLink wants: project, test plan,
  dotted test-suite path (creating missing suites), platform and build;
- it finds or creates a test case by name and records its result.

This project models that core, and the exporter around it, as pure functions over
immutable values.

- `wrappers.dfy` (`Wrappers`): `Option` and `Result`. A null reference is `None`.
- `seqs.dfy` (`Seqs`):
  - `FirstIndex`: the `foreach … if (x.name == n) … break` search;
  - `Filter`: the server's list queries.
- `text.dfy` (`Text`): the .NET string operations the code uses:
  - `Split` with empty pieces kept, plus `Join` and the round trip between them;
  - `LastIndexOf`, `ToLower`, `EndsWith`;
  - `AppendLine` with the Windows line terminator "\r\n";
  - integer formatting.
- `records.dfy` (`Records`): `TestLinkConnectionData` and `TestLinkProjectData`, both
  as written and corrected.
- `remote.dfy` (`Remote`): a deterministic TestLink server. Every proxy call is a function
  from the server before the call to the reply and the server after it, and appends one
  `Call` to the server's `log`. So "no request was made" reads `r.server == s`.
  - `Wellformed` states what a real server guarantees about ids.
  - `Extends` says a server only grew by suites, cases and links, and received no result
    report.
- `test_suites.dfy` (`TestSuites`): `GetTestSuiteId`, the level-by-level walk of a
  dotted suite path. It is proved sound against `Lineage`, an independent parent-link
  definition of a suite's path.
- `adaptor.dfy` (`TestLinkAdaptor`):
  - the adaptor is a record, and each operation takes and returns `(adaptor, server)`;
  - the connection and selection updates are here, with invariants over any sequence of
    client commands.
- `exporter.dfy` (`ResultExporter`):
  - the single-slot output buffer;
  - the name helpers and the outcome mapping;
  - `reportResult`;
  - the recursive walk over the result tree, shown equal to a flat pre-order walk and sound
    for every result report it sends.

Some behaviour of the code is worth knowing before reading the contracts:

- **The adaptor keeps no per-name caches.** It keeps one id per level, together with the
  last accepted selection. A step looks its name up again only when that name differs from
  the accepted one. Switching back to a name seen before is resolved again, with new
  requests.
- **An unchanged name is not looked up again, even under a changed parent.** A selection
  that changes only the project keeps the plan, suite, platform and build ids of the
  previous project, because each of those names is unchanged and its id non-zero. This is
  the third row under "## Findings"; the model's `UpdateProjectData` looks the dependent
  names up again.
- **An empty platform name is not a sentinel.** It is compared like any other name. On a
  first selection an empty platform, or an empty build, counts as unchanged from the
  all-empty default. With its id still 0, the selection is refused
  (`FirstSelectionNeedsPlatformAndBuild`).
- **A failed update keeps the ids it resolved before failing.** Only `projectData` goes
  back to the accepted selection. Resubmitting that selection then compares every name as
  unchanged and passes on whichever ids are non-zero. The model's `UpdateProjectData`
  keeps this behaviour.
- **New connection data does not invalidate the selection.** It re-probes the server, but
  the resolved ids and `projectDataValid` stay as they were.
- **A failed probe does not clear `projectDataValid` either.** `ConnectionValid` still
  becomes false, through `basicConnectionValid`.
- **All results share one captured output.** Results are exported only at `RunFinished`, so
  every reported leaf carries the buffer's final contents, not the output of its own test.

## Model

| member | source | states |
|---|---|---|
| `Records.NewConnectionData` | TestLinkAPI/TestLinkConnectionData.cs:13-18 | the constructor stores url in `Url`, devkey in `DevKey` and user in `User` |
| `Records.DefaultConnectionData` | TestLinkAPI/TestLinkConnectionData.cs:20-25 | the parameterless constructor gives all three fields the empty string |
| `Records.ConnectionEquals` | TestLinkAPI/TestLinkConnectionData.cs:30-33 | `Equals` holds exactly when the two values agree on every field, that is when they are the same value |
| `Records.ConnectionEqualsIsIdentity` | TestLinkAPI/TestLinkConnectionData.cs:26-33 | `Equals` holds exactly when the two values are identical; it is reflexive and symmetric; reading back the three getters and rebuilding gives the same value |
| `Records.NewProjectData` | TestLinkAPI/TestLinkProjectData.cs:14-20 | corrected constructor: each of the five arguments, `testsuite` included, is stored in its own field |
| `Records.DefaultProjectData` | TestLinkAPI/TestLinkProjectData.cs:22-28 | the parameterless constructor gives every name the empty string |
| `Records.NewProjectDataAsWritten` | TestLinkAPI/TestLinkProjectData.cs:14-20 | the constructor as declared stores build, project, test plan and platform, and keeps no suite |
| `Records.AsWrittenLosesTestsuite` | TestLinkAPI/TestLinkProjectData.cs:7-20 | as declared, two selections that differ only in their suite construct equal values; the corrected constructor tells them apart |
| `Seqs.FirstIndex` | TestLinkAPI/TestLinkAdaptor.cs:114-121 | the first-match search finds the least index whose element matches, and finds none exactly when no element matches |
| `Text.Split` | TestLinkAPI/TestLinkAdaptor.cs:373 | splitting on '.' gives at least one piece, no piece holds a '.', and joining the pieces with '.' gives back the input |
| `Text.SplitJoin` | TestLinkAPI/TestLinkAdaptor.cs:373 | round trip the other way: pieces without a '.' survive a join followed by a split |
| `Text.LastIndexOf` | NUnit/ResultExporter.cs:176 | the answer is -1 or a position holding the character, and no later position holds it |
| `TestSuites.GetTestSuiteId` | TestLinkAPI/TestLinkAdaptor.cs:368-409 | only suites are added (cases, links and results untouched); nothing is added without creation; at most one suite per segment; on a well-formed server a non-zero answer is a stored suite reached from a first-level suite of the project through suites named by the segments; with creation, 0 means the server refused the last creation |
| `TestSuites.Walk` | TestLinkAPI/TestLinkAdaptor.cs:376-407 | each iteration only adds suites, at most one per segment, and none without creation |
| `TestSuites.ResolveSegment` | TestLinkAPI/TestLinkAdaptor.cs:378-405 | the level's first suite with the segment's name, when its id is non-zero, is the answer, with no request; a non-zero answer without a new suite is such a suite; with creation and no suite of that name, one suite is appended under the previous segment's suite and its id is the answer unless the server refuses the name; without creation, or on a refusal, the walk stops |
| `TestSuites.StepKeepsPath` | TestLinkAPI/TestLinkAdaptor.cs:378-400 | a resolved segment, found or created, extends the resolved chain of suites by one suite of that name |
| `TestSuites.WalkFindsPath` | TestLinkAPI/TestLinkAdaptor.cs:376-408 | the id the loop ends on is the end of a chain of stored suites whose names are the path's segments, level by level |
| `TestSuites.WalkZeroMeansRefused` | TestLinkAPI/TestLinkAdaptor.cs:388-397 | with creation enabled, the walk gives 0 only after a suite creation that the server refused |
| `TestSuites.CreationOnlyWhenMissing` | TestLinkAPI/TestLinkAdaptor.cs:380-404 | a path that resolves without creation resolves identically with creation enabled, with the same requests and nothing created |
| `TestSuites.WalkFollowsPath` | TestLinkAPI/TestLinkAdaptor.cs:376-407 | walking the names of a stored chain of suites from a level that holds its first suite ends on the chain's last suite and changes nothing but the log, when sibling names are distinct |
| `TestSuites.ExistingPathIsReused` | TestLinkAPI/TestLinkAdaptor.cs:368-409 | on a well-formed server whose sibling suites have distinct names, a path naming a stored suite answers that suite's id, with or without creation, and adds nothing |
| `TestSuites.RootChildScenario` | TestLinkAPI/TestLinkAdaptor.cs:373-408 | with "Root" stored and "Child" missing, "Root.Child" creates exactly "Child" under "Root" and answers its id, after exactly four requests |
| `TestLinkAdaptor.NewAdaptor` | TestLinkAPI/TestLinkAdaptor.cs:43-90 | a new adaptor holds no connection data, selection, proxy, project or exception; both validity flags are false and every id is 0; it satisfies the invariants |
| `TestLinkAdaptor.ConnectionValid` | TestLinkAPI/TestLinkAdaptor.cs:67-70 | for an adaptor satisfying the invariants, a valid connection means a proxy, connection data and a selection in hand and every id non-zero |
| `TestLinkAdaptor.RecordTheResult` | TestLinkAPI/TestLinkAdaptor.cs:100-108 | without a valid connection there is no request and the answer is a failed "Invalid Connection"; with one, exactly one report is sent for the resolved plan and build and the selected platform's name, and it succeeds exactly when the test case exists |
| `TestLinkAdaptor.GetPlatformId` | TestLinkAPI/TestLinkAdaptor.cs:110-122 | one request; the answer is the id of the plan's first platform of that name, and 0 when the plan has none of that name |
| `TestLinkAdaptor.GetTestCaseByName` | TestLinkAPI/TestLinkAdaptor.cs:164-173 | one request; a non-zero answer is a test case with that name in that suite; there is such a case exactly when the answer is non-zero (on a well-formed server) |
| `TestLinkAdaptor.GetTestCaseId` | TestLinkAPI/TestLinkAdaptor.cs:130-156 | the server only grows, by at most one test case; a non-zero id names a case with that name in the current suite; an existing case is found with one request and nothing created; a missing one goes to creation |
| `TestLinkAdaptor.ExternalRefReadsBack` | TestLinkAPI/TestLinkAdaptor.cs:147 | the external reference "{prefix}-{external id}" reads back: its last '-' follows the prefix, the prefix precedes it and the id's digits follow it |
| `TestLinkAdaptor.CreateAndLink` | TestLinkAPI/TestLinkAdaptor.cs:133-155 | a non-zero id is a case newly created with that name in the current suite and project, followed by a link into the plan under "{prefix}-{external id}" for the platform; a null dereference comes only from missing connection data, a missing project, or a refusal without `additionalInfo`; an accepted creation and link always give a non-zero id |
| `TestLinkAdaptor.BasicConnection` | TestLinkAPI/TestLinkAdaptor.cs:207-223 | a new proxy for the data's key and URL, the plan list cleared, one probe; it succeeds exactly when the server knows the URL and key, and the project list is replaced only then; `LastException` is set exactly on failure |
| `TestLinkAdaptor.UpdateConnectionData` | TestLinkAPI/TestLinkAdaptor.cs:181-203 | null clears the data and the connection; data equal to what is held (nothing held counts as empty data) makes no request and keeps the previous validity; other data is probed; the result equals `basicConnectionValid`; the selection and its ids are untouched; the invariants are kept |
| `TestLinkAdaptor.ResolveProject` | TestLinkAPI/TestLinkAdaptor.cs:244-267 | an unchanged project passes exactly when its id is non-zero, with no request; a changed one takes the first probed project of that name and fetches its plans with one request, succeeding exactly when its id is non-zero; with no project of that name there is no request and the step fails; a failure zeroes the plan and suite ids |
| `TestLinkAdaptor.ResolvePlan` | TestLinkAPI/TestLinkAdaptor.cs:269-286 | no request; a changed plan takes the id of the first plan of that name among the project's plans and succeeds exactly when it is non-zero; with none of that name it fails; a failure zeroes the plan and suite ids |
| `TestLinkAdaptor.ResolveSuite` | TestLinkAPI/TestLinkAdaptor.cs:288-298 | a changed suite path is walked with creation; on a well-formed server, success means the id ends the path's chain of suites in the project, failure comes only from a refused creation, and a path already stored is reused as it is, with nothing created |
| `TestLinkAdaptor.ResolvePlatform` | TestLinkAPI/TestLinkAdaptor.cs:300-310 | a changed platform is looked up with one request; success exactly when the id is non-zero |
| `TestLinkAdaptor.ResolveBuild` | TestLinkAPI/TestLinkAdaptor.cs:312-355 | a changed build fetches the plan's builds; none at all fails without changes; a non-empty name takes the first build of that name, a null or empty one the last build; success exactly when the chosen build is active and open; a missing build leaves the id as it was |
| `TestLinkAdaptor.ResolveFromPlan` | TestLinkAPI/TestLinkAdaptor.cs:269-355 | the steps after the project change only the plan, suite, platform and build ids, and succeed only with all of them resolved |
| `TestLinkAdaptor.ResolveFromSuite` | TestLinkAPI/TestLinkAdaptor.cs:288-355 | the steps after the plan change only the suite, platform and build ids, and succeed only with all of them resolved |
| `TestLinkAdaptor.ResolveFromPlatform` | TestLinkAPI/TestLinkAdaptor.cs:300-355 | the last two steps change only the platform and build ids; their only requests are at most the plan's platform list and its build list; they succeed only with both resolved, and an unchanged name that holds id 0 makes them fail |
| `TestLinkAdaptor.FromPlatformFollows` | TestLinkAPI/TestLinkAdaptor.cs:300-355 | when the last two steps succeed, a looked-up platform is the plan's first platform of that name, a looked-up build is the one chosen for the build name and is active and open, and a step not looked up keeps its id |
| `TestLinkAdaptor.FromSuiteFollows` | TestLinkAPI/TestLinkAdaptor.cs:288-355 | when the suite, platform and build steps succeed, a looked-up suite path names the suite held (on a well-formed server), the platform and build are as in `FromPlatformFollows`, and a step not looked up keeps its id |
| `TestLinkAdaptor.UpdateWith` | TestLinkAPI/TestLinkAdaptor.cs:228-360 | for any choice of the steps that look their name up again: without a connection the ids are zeroed and the selection invalid; only success accepts the new selection; a step that does not look its name up and holds id 0 makes the update fail; on success a step that looked its name up holds the first project, plan or platform of the new name, the suite its path names, or the build chosen for the build name (active and open), and every other step keeps its id |
| `TestLinkAdaptor.UpdateWithKeepsInv` | TestLinkAPI/TestLinkAdaptor.cs:228-360 | for any choice of changes, the update keeps the adaptor invariant: a working connection has its proxy and data, an accepted selection is held, and a project id comes with its project |
| `TestLinkAdaptor.FromPlanFollows` | TestLinkAPI/TestLinkAdaptor.cs:269-355 | after the project step, a successful update looks a changed plan, suite, platform or build up (first plan and platform of the name, the path's suite, the chosen active and open build) and keeps the id of an unchanged one |
| `TestLinkAdaptor.UpdateProjectDataAsWritten` | TestLinkAPI/TestLinkAdaptor.cs:228-360 | as written, a step looks its name up again exactly when that name changed: on success a changed project, plan, platform or build holds the first match of the new name (the chosen build for builds), a changed suite path the suite it names, and an unchanged name keeps its id; without a connection the ids are zeroed and the selection invalid; otherwise only success accepts the new selection, and a failure leaves `projectDataValid` as it was; success means every id is resolved |
| `TestLinkAdaptor.UpdateProjectData` | TestLinkAPI/TestLinkAdaptor.cs:228-360 | corrected: afterwards `ConnectionValid` holds exactly when this update succeeded; success accepts the new selection; on a well-formed server a valid selection has every id resolved; a changed project looks every later name up again and a changed plan its platform and build; on success every looked-up step holds the first match of the new name (the path's suite, the chosen build) and every other step keeps its id |
| `TestLinkAdaptor.AsWrittenKeepsStaleValidity` | TestLinkAPI/TestLinkAdaptor.cs:244-264 | after an accepted selection, the as-written update to an unknown project fails, zeroes the project id, and still reads `ConnectionValid`; the corrected one reads invalid |
| `TestLinkAdaptor.UpdateRepeatIsFree` | TestLinkAPI/TestLinkAdaptor.cs:244-359 | idempotence: repeating an accepted selection makes no request, changes nothing and succeeds |
| `TestLinkAdaptor.BuildChangeKeepsOtherIds` | TestLinkAPI/TestLinkAdaptor.cs:244-355 | changing only the build keeps the project, plan, suite and platform ids and makes only the build-list request |
| `TestLinkAdaptor.AsWrittenKeepsStalePlan` | TestLinkAPI/TestLinkAdaptor.cs:244-310 | as written, a selection that changes only the project succeeds with the previous plan and suite ids, so the plan held is not one of the new project's; the corrected update, when it succeeds, holds a plan of the new project with the selected name |
| `TestLinkAdaptor.SelectionAccepted` | TestLinkAPI/TestLinkAdaptor.cs:228-360 | a selection naming another project is accepted on a working connection when the first matching project, plan and platform have non-zero ids, the suite path is stored and the chosen build is active and open; the ids held are exactly those matches and no suite is created |
| `TestLinkAdaptor.SameProjectAccepted` | TestLinkAPI/TestLinkAdaptor.cs:266-359 | for any choice of steps, an update that keeps a project in hand on a working connection is accepted when every looked-up step has its match (first plan in hand and first platform of the name with non-zero ids, a stored suite path, the chosen build active and open) and every other step holds a non-zero id; it then holds exactly those matches and the kept ids, and creates no suite |
| `TestLinkAdaptor.PartialSelectionAccepted` | TestLinkAPI/TestLinkAdaptor.cs:266-359 | the converse of the corrected update's success clauses for a selection with the same project: when every name it looks up again resolves, it is accepted, `ConnectionValid` holds, and the ids are those matches |
| `TestLinkAdaptor.PartialSelectionAcceptedAsWritten` | TestLinkAPI/TestLinkAdaptor.cs:266-359 | the same converse for the update as written, where only changed names are looked up again |
| `TestLinkAdaptor.NewBuildAccepted` | TestLinkAPI/TestLinkAdaptor.cs:312-359 | a selection that changes only the build name to the plan's first build of that name, active and open, is accepted by both updates alike, holding that build's id and keeping every other id |
| `TestLinkAdaptor.AllChangedAgree` | TestLinkAPI/TestLinkAdaptor.cs:244-355 | when every name changes, the update as written and the corrected one make the same requests and agree on acceptance, and on success on every field |
| `TestLinkAdaptor.FirstSelectionNeedsPlatformAndBuild` | TestLinkAPI/TestLinkAdaptor.cs:239-242 | as written, a first selection with an empty platform or empty build name is refused, because it compares equal to the default selection while its id is 0 |
| `TestLinkAdaptor.RefusedCreationWithoutInfoFails` | TestLinkAPI/TestLinkAdaptor.cs:136-141 | a refused creation without `additionalInfo` dereferences null before its status is read |
| `TestLinkAdaptor.Apply` | TestLinkAPI/TestLinkAdaptor.cs:181-360 | either update, the selection one in its corrected form, only grows the server by suites, cases and links, with no result report, and keeps it well-formed |
| `TestLinkAdaptor.ReplayKeepsInvariant` | TestLinkAPI/TestLinkAdaptor.cs:181-360 | with the corrected `UpdateProjectData` (second Findings row), after any sequence of connection and selection updates the adaptor invariants hold and the server has only grown |
| `TestLinkAdaptor.ReachableAdaptorIsResolved` | TestLinkAPI/TestLinkAdaptor.cs:67-70 | with the corrected `UpdateProjectData` (second Findings row), for every adaptor reachable from a new one, `ConnectionValid` implies a proxy, connection data and a selection in hand, every id non-zero, and the current project matching the project id |
| `ResultExporter.NewExporter` | NUnit/ResultExporter.cs:102-114 | a new listener has no fixtures, an empty buffer and an adaptor that is not valid |
| `ResultExporter.TestStarted` | NUnit/ResultExporter.cs:136-139 | the buffer is emptied and nothing else changes |
| `ResultExporter.TestOutput` | NUnit/ResultExporter.cs:161-164 | the buffer is replaced by the text (not appended to) and nothing else changes |
| `ResultExporter.FeedKeepsLastText` | NUnit/ResultExporter.cs:136-164 | after any stream of start and output events, the buffer holds exactly what the last event left |
| `ResultExporter.ExtractTestFixture` | NUnit/ResultExporter.cs:173-182 | a non-empty answer is the part of the path before its last '.'; the answer is empty exactly when no '.' follows the first character |
| `ResultExporter.ExtractTestFixtureOfMethod` | NUnit/ResultExporter.cs:173-182 | round trip: the fixture of "{class}.{method}" is the class |
| `ResultExporter.IsDllPath` | NUnit/ResultExporter.cs:232-236 | a DLL path is at least four characters long and has a '.' fourth from the end |
| `ResultExporter.IsDllPathExactly` | NUnit/ResultExporter.cs:232-236 | a name is a DLL path exactly when it ends in '.', then 'd' or 'D', then two of 'l' or 'L' |
| `ResultExporter.TestCaseName` | NUnit/ResultExporter.cs:250-257 | the reported name ends in the result's name; it is that name when it equals the method name, and otherwise the method name and a '.' come first |
| `ResultExporter.StatusFor` | NUnit/ResultExporter.cs:304-326 | pass exactly for a success, fail exactly for a failure or an error, blocked for every other state |
| `ResultExporter.Notes` | NUnit/ResultExporter.cs:306-322 | the notes start with the message line (empty when null) and the output line; a marker line follows exactly for a skipped or ignored test |
| `ResultExporter.SendResult` | NUnit/ResultExporter.cs:302-339 | with a valid connection, exactly one report is sent, carrying the mapped status and the notes built from the buffer; otherwise no request is made |
| `ResultExporter.ReportResult` | NUnit/ResultExporter.cs:244-293 | the fixture's connection data is held afterwards; the server only grows; at most one result report is sent, and it is the last request; it is sent only when the fixture's selection has been accepted, and it names a positive id of a case with the reported name in the selected suite; when the selection is accepted and the case exists, the report is sent; without a valid connection no request follows the updates |
| `ResultExporter.Configure` | NUnit/ResultExporter.cs:246 | the fixture's connection data is held afterwards; a valid connection afterwards means the fixture's selection was accepted; the server only grows, with no result report; on a well-formed server the adaptor invariants are kept |
| `ResultExporter.LookupAndSend` | NUnit/ResultExporter.cs:271-283 | behind the validity guard, a report is sent exactly when the lookup or creation gives a positive id, and then names a test case with the reported name in the selected suite, with the mapped status and the notes; a case that exists is always reported |
| `ResultExporter.SendFound` | NUnit/ResultExporter.cs:273-283 | a positive id gets exactly one report, the last request, for the resolved plan and build and the selected platform, with the mapped status and the notes; 0 or a null dereference sends nothing and makes no request |
| `ResultExporter.ReportResultIsSound` | NUnit/ResultExporter.cs:244-293 | on a well-formed server, reporting keeps the adaptor invariants, and any report it sends names an existing case and a resolved plan and build |
| `ResultExporter.WithSuite` | NUnit/ResultExporter.cs:215-219 | a fixture with a null suite gets the fixture's class name as its suite; a set suite is kept; nothing else changes |
| `ResultExporter.ProcessLeaf` | NUnit/ResultExporter.cs:207-229 | a leaf whose fixture is unknown changes nothing; a known fixture with a null suite gets the fixture's class name as its suite; a disabled fixture sends nothing; an enabled one is reported, and its result is sent when its selection is accepted and its case exists; a report is sent only for an enabled fixture whose selection has been accepted |
| `ResultExporter.Visit` | NUnit/ResultExporter.cs:191-230 | a DLL-named node adds the fixtures its assembly declares; a suite node makes no request; the server only grows |
| `ResultExporter.ProcessResults` | NUnit/ResultExporter.cs:125-130 | at the end of a run the walk only grows the server, keeps every fixture it knew, and leaves the buffer as it was |
| `ResultExporter.ProcessChildren` | NUnit/ResultExporter.cs:197-205 | the sub-results, in order, only grow the server |
| `ResultExporter.ProcessIsPreOrder` | NUnit/ResultExporter.cs:191-205 | the recursive walk equals a flat walk over the tree's nodes in pre-order, so every node is visited once, a suite before its sub-results |
| `ResultExporter.ProcessResultsIsSound` | NUnit/ResultExporter.cs:191-230 | on a well-formed server, with the adaptor invariants, a whole run keeps them, and every result report it sends names an existing test case and a resolved plan and build |

## Left out

- Logging through log4net, and `Console.Error` output: they do not affect state.
- `extractTestFixtureAttribute`:
  - it loads assemblies by reflection, reads configuration files and validates attributes;
  - the model takes it as a parameter, `load(path)`: the fixtures the assembly at `path`
    declares, after configuration and validation;
  - the default configuration file read by the constructor is left out with it.
- The XML-RPC proxy and the TestLink server (`Meyn.TestLink.TestLink` is not part of this
  model):
  - the server is the deterministic `Remote.Server`;
  - "refused" creations come from a set of refused names;
  - the `additionalInfo` of a refused test case creation is a server parameter.
- Transport exceptions:
  - the only one modelled is the probe's failure in `basicConnection`;
  - the requests of `GetProjectTestPlans`, `GetTestSuiteId`, `GetTestPlanPlatforms` and
    `GetBuildsForTestPlan` run from ResultExporter.cs:246, before the `try` at line 248, so
    a `TestLinkException` from them leaves `reportResult` and `processResults` and ends the
    walk; so does one from `extractTestFixtureAttribute` at line 195;
  - the model has no such exceptions: every request answers. `ProcessIsPreOrder`'s "every
    node is visited once" holds for runs in which none is thrown;
  - exceptions from `GetTestCaseId` and from sending the result are caught inside
    `reportResult` and only logged; the model has none of them either.
- The empty listener callbacks (`RunStarted`, `RunFinished(Exception)`, `TestFinished`,
  `SuiteStarted`, `SuiteFinished`, `UnhandledException`): they do nothing.
- NUnitTests/Class1.cs: a sample test, not adapter logic.
- Null strings, except `Build`, the test description and the result message, which the code
  checks for or passes on. Every other string is assumed non-null.
- `ToLower` is modelled on ASCII letters only; other characters are left as they are.
- `LastIndexOf(".")` in `ExtractTestFixture` and `EndsWith(".dll")` in `IsDllPath` compare by
  the current culture in .NET, which skips ignorable characters such as U+00AD (soft hyphen).
  The model compares character by character (ordinal comparison).
- The statement `adaptor.ConnectionData = tlfa` in `reportResult` names a property the
  adaptor does not declare. It is modelled as
  `UpdateConnectionData` with the fixture's connection data, followed by the corrected
  `UpdateProjectData` with its selection.
- `TestLinkAdaptor.ReplayKeepsInvariant` and `TestLinkAdaptor.ReachableAdaptorIsResolved`:
  they hold for the corrected `UpdateProjectData` only. As written, a refused selection can
  leave `ConnectionValid` true with a project id of 0 (`AsWrittenKeepsStaleValidity`).
- `TestLinkAdaptor.SameProjectAccepted`, `TestLinkAdaptor.PartialSelectionAccepted` and
  `TestLinkAdaptor.PartialSelectionAcceptedAsWritten`: a looked-up suite path is required to
  name a suite already stored. A path the walk has to create also lets the update succeed
  when the server accepts every creation; that case is only stated step by step
  (`ResolveSuite`, `WalkZeroMeansRefused`).
- `ResultExporter.ProcessResults`: only its traversal, the soundness of its reports, and (through
  `ProcessLeaf` and `ProcessIsPreOrder`) that each leaf of an enabled fixture is handed to
  `reportResult` are stated. How many reports a whole run sends is not counted.

## Findings

| source | as written | input that shows it | evidently intended | confidence | as-written member | corrected member |
|---|---|---|---|---|---|---|
| TestLinkAPI/TestLinkProjectData.cs:14-20 | the constructor takes `testsuite` but stores it nowhere, and the class has no `Testsuite` member, though TestLinkAdaptor.cs:288 reads `projectData.Testsuite` | `new TestLinkProjectData("b", "P", "T", "S1", "X")` and the same with "S2" construct equal values | a `Testsuite` member that stores the argument | high (not executed) | `Records.AsWrittenLosesTestsuite` | `Records.NewProjectData` |
| TestLinkAPI/TestLinkAdaptor.cs:258-355 | every failure path after the connection guard returns false without clearing `projectDataValid` | accept a selection, then update to a selection naming a project the server does not have: the update returns false and zeroes `testProjectId`, yet `ConnectionValid` stays true, so results go out with stale ids | a failed update leaves the selection invalid, as the guard at lines 230-237 does | medium (not executed) | `TestLinkAdaptor.AsWrittenKeepsStaleValidity` | `TestLinkAdaptor.UpdateProjectData` |
| TestLinkAPI/TestLinkAdaptor.cs:244-310 | each step after the project is skipped when its own name is unchanged and its id non-zero, even when the project changed | accept project P1 with plan "T"; then select project P2 with the same plan name: the plan id stays that of P1's plan, which is not one of P2's plans, and the update succeeds | a changed project looks its plan, suite, platform and build up again, and a changed plan its platform and build | medium (not executed) | `TestLinkAdaptor.AsWrittenKeepsStalePlan` | `TestLinkAdaptor.UpdateProjectData` |

=== FILE: adaptor.dfy ===
/** `TestLinkAdaptor`: the connection state and the resolution of a project / test plan /
    test suite / platform / build selection into TestLink ids. The adaptor is a record;
    every operation takes the adaptor and the server and returns both, updated, with its
    result (`Step`). */
module TestLinkAdaptor {
  import opened Wrappers
  import opened Seqs
  import opened Text
  import opened Records
  import opened Remote
  import opened TestSuites

  /** The adaptor's fields. `proxy` is the endpoint the current proxy was built for (null
      before the first connection attempt); `allProjects` is what the last successful probe
      returned and `allTestPlans` the plans of the last project looked up. */
  datatype Adaptor = Adaptor(
    projectData: Option<ProjectData>,
    connectionData: Option<ConnectionData>,
    basicConnectionValid: bool,
    projectDataValid: bool,
    lastException: Option<string>,
    proxy: Option<Endpoint>,
    allProjects: seq<Project>,
    allTestPlans: seq<TestPlan>,
    currentProject: Option<Project>,
    testSuiteId: int,
    testBuildId: int,
    testPlanId: int,
    testProjectId: int,
    platformId: int)

  datatype Step<T> = Step(adaptor: Adaptor, server: Server, value: T)

  /** The constructor: nothing held, nothing valid, every id 0. */
  function NewAdaptor(): (a: Adaptor)
    ensures a.projectData.None? && a.connectionData.None? && a.proxy.None?
    ensures a.currentProject.None? && a.lastException.None?
    ensures !a.basicConnectionValid && !a.projectDataValid
    ensures a.testProjectId == 0 && a.testPlanId == 0 && a.testSuiteId == 0
    ensures a.platformId == 0 && a.testBuildId == 0
    ensures !ConnectionValid(a) && Inv(a) && Resolved(a)
  {
    Adaptor(None, None, false, false, None, None, [], [], None, 0, 0, 0, 0, 0)
  }

  /** `ConnectionValid`: the server answers and the whole selection is resolved. */
  predicate ConnectionValid(a: Adaptor)
    ensures ConnectionValid(a) && Inv(a) && Resolved(a) ==>
      && a.proxy.Some? && a.connectionData.Some? && a.projectData.Some?
      && a.testProjectId != 0 && a.testPlanId != 0 && a.testSuiteId != 0
      && a.platformId != 0 && a.testBuildId != 0
  {
    a.basicConnectionValid && a.projectDataValid
  }

  /** What every reachable adaptor satisfies: a working connection has a proxy and its
      data, an accepted selection is held, and a project id comes with its project. */
  ghost predicate Inv(a: Adaptor) {
    && (a.basicConnectionValid ==> a.proxy.Some? && a.connectionData.Some?)
    && (a.projectDataValid ==> a.projectData.Some?)
    && (a.testProjectId != 0 ==>
          a.currentProject.Some? && a.currentProject.value.id == a.testProjectId)
  }

  /** A selection marked valid has every id resolved. */
  ghost predicate Resolved(a: Adaptor) {
    a.projectDataValid ==>
      && a.testProjectId != 0 && a.testPlanId != 0 && a.testSuiteId != 0
      && a.platformId != 0 && a.testBuildId != 0
  }

  // ---------------------------------------------------------------- recording a result

  /** `RecordTheResult`: with a valid connection the result goes to the server for the
      resolved plan and build and the selected platform's name; otherwise no request is made
      and the answer is a failed "Invalid Connection". */
  function RecordTheResult(a: Adaptor, s: Server, testCaseId: int, status: ResultStatus,
                           notes: string): (r: Step<GeneralResult>)
    requires ConnectionValid(a) ==> a.projectData.Some?
    ensures r.adaptor == a
    ensures r.server == s.(log := r.server.log, executions := r.server.executions)
    ensures s.log <= r.server.log && s.executions <= r.server.executions
    ensures !ConnectionValid(a) ==>
      r.server == s && r.value == GeneralResult("Invalid Connection", false, 0, None)
    ensures ConnectionValid(a) ==>
      && r.server.log == s.log + [Report(testCaseId, a.testPlanId, status,
                                         a.projectData.value.platform, notes, a.testBuildId)]
      && (r.value.status <==> exists c :: c in s.cases && c.id == testCaseId)
  {
    if ConnectionValid(a) then
      var reply := ReportTCResult(s, testCaseId, a.testPlanId, status,
                                  a.projectData.value.platform, notes, a.testBuildId);
      Step(a, reply.server, reply.value)
    else Step(a, s, GeneralResult("Invalid Connection", false, 0, None))
  }

  /** `GetPlatformId`: the id of the first platform of the plan with that name, or 0. */
  function GetPlatformId(s: Server, testPlanId: int, platformName: string): (r: Reply<int>)
    ensures r.server == Logged(s, ListPlatforms(testPlanId))
    ensures r.value != 0 ==>
      exists k :: IsFirst(PlatformsOf(s, testPlanId), k, (p: Platform) => p.name == platformName)
               && PlatformsOf(s, testPlanId)[k].id == r.value
    ensures (forall k :: 0 <= k < |PlatformsOf(s, testPlanId)| ==>
               PlatformsOf(s, testPlanId)[k].name != platformName) ==> r.value == 0
    ensures forall k :: IsFirst(PlatformsOf(s, testPlanId), k, (p: Platform) => p.name == platformName) ==>
      r.value == PlatformsOf(s, testPlanId)[k].id
  {
    var platforms := GetTestPlanPlatforms(s, testPlanId);
    var hit := FirstIndex(platforms.value, (p: Platform) => p.name == platformName);
    Reply(if hit.Some? then platforms.value[hit.value].id else 0, platforms.server)
  }

  // ---------------------------------------------------------------- test cases

  /** The outcome of `GetTestCaseId`: an id (0 for failure), or the null dereference the
      source runs into. */
  datatype CaseLookup = CaseId(id: int) | NullReference

  /** `string.Format("{0}-{1}", prefix, externalId)`: the external id of a test case. The
      digits follow the last '-', so the prefix and the number can be read back from it. */
  function ExternalRef(prefix: string, externalId: int): string {
    prefix + "-" + IntToString(externalId)
  }

  /** Reading an external id back: for a non-negative number the last '-' is the one after
      the prefix, the prefix is what precedes it and the number's digits what follows. */
  lemma ExternalRefReadsBack(prefix: string, externalId: nat)
    ensures var r := ExternalRef(prefix, externalId);
      && LastIndexOf(r, '-') == |prefix|
      && r[..|prefix|] == prefix && r[|prefix| + 1..] == NatToString(externalId)
  {
    var r := ExternalRef(prefix, externalId);
    var digits := NatToString(externalId);
    assert forall j :: |prefix| < j < |r| ==> r[j] == digits[j - |prefix| - 1];
    assert r[|prefix|] == '-';
  }

  /** `getTestCaseByName`: among the test cases with that name, the first whose parent is
      the given suite, or 0. */
  function GetTestCaseByName(s: Server, testCaseName: string, testSuiteId: int): (r: Reply<int>)
    ensures r.server == Logged(s, FindCases(testCaseName))
    ensures r.value != 0 ==>
      exists c :: c in s.cases && c.name == testCaseName && c.suiteId == testSuiteId
               && c.id == r.value
    ensures !HasCase(s, testCaseName, testSuiteId) ==> r.value == 0
    ensures Wellformed(s) && HasCase(s, testCaseName, testSuiteId) ==> r.value != 0
  {
    var refs := GetTestCaseIDByName(s, testCaseName);
    if |refs.value| == 0 then Reply(0, refs.server)
    else
      var hit := FirstIndex(refs.value, (c: TestCaseRef) => c.parentId == testSuiteId);
      if hit.Some? then
        assert refs.value[hit.value] in refs.value;
        Reply(refs.value[hit.value].id, refs.server)
      else
        assert !HasCase(s, testCaseName, testSuiteId);
        Reply(0, refs.server)
  }

  /** `GetTestCaseId`: the test case of that name in the current suite; when there is none
      it is created there and linked into the test plan (`CreateAndLink`). */
  function GetTestCaseId(a: Adaptor, s: Server, testName: string, testDescription: string)
    : (r: Step<CaseLookup>)
    ensures r.adaptor == a
    ensures Extends(s, r.server)
    ensures Wellformed(s) ==> Wellformed(r.server)
    ensures s.cases <= r.server.cases && |r.server.cases| <= |s.cases| + 1
    ensures r.value.CaseId? && r.value.id != 0 ==>
      exists c :: c in r.server.cases && c.id == r.value.id && c.name == testName
               && c.suiteId == a.testSuiteId
    ensures a.proxy.Some? && HasCase(s, testName, a.testSuiteId) && Wellformed(s) ==>
      r.value.CaseId? && r.value.id != 0 && r.server == Logged(s, FindCases(testName))
    ensures a.proxy.Some? && !HasCase(s, testName, a.testSuiteId) ==>
      var found := Logged(s, FindCases(testName));
      r == CreateAndLink(a, found, testName, testDescription)
    ensures a.proxy.None? ==> r == Step(a, s, NullReference)
  {
    if a.proxy.None? then Step(a, s, NullReference)
    else
      var found := GetTestCaseByName(s, testName, a.testSuiteId);
      if found.value != 0 then Step(a, found.server, CaseId(found.value))
      else CreateAndLink(a, found.server, testName, testDescription)
  }

  /** The creation branch of `GetTestCaseId`: the case is created in the current suite by
      the connection's user, then linked into the plan for the platform under the external
      id "{prefix}-{external_id}"; the answer is the new case's id, or 0 when the creation is
      refused or the link fails. The source reads `additionalInfo` of the creation's reply
      before it checks the reply's status, so a refusal without `additionalInfo` is a null
      dereference. */
  function CreateAndLink(a: Adaptor, s: Server, testName: string, testDescription: string)
    : (r: Step<CaseLookup>)
    ensures r.adaptor == a
    ensures Extends(s, r.server)
    ensures Wellformed(s) ==> Wellformed(r.server)
    ensures s.cases <= r.server.cases && |r.server.cases| <= |s.cases| + 1
    ensures r.value.CaseId? && r.value.id != 0 ==>
      && a.connectionData.Some? && a.currentProject.Some?
      && |r.server.cases| == |s.cases| + 1
      && var c := r.server.cases[|s.cases|];
         && c == TestCase(r.value.id, testName, a.testSuiteId, a.testProjectId, c.externalId,
                          c.version)
         && r.server.log == s.log
              + [NewCase(a.connectionData.value.user, a.testSuiteId, testName, a.testProjectId,
                         testDescription),
                 LinkCase(a.currentProject.value.id, a.testPlanId,
                          ExternalRef(a.currentProject.value.prefix, c.externalId), c.version,
                          a.platformId)]
    ensures r.value.NullReference? ==>
      a.connectionData.None? || a.currentProject.None? || s.rejectionInfo.None?
    ensures a.connectionData.Some? && a.currentProject.Some? && Wellformed(s)
            && testName !in s.refusedNames && !HasCase(s, testName, a.testSuiteId)
            && (exists p :: p in s.plans && p.id == a.testPlanId
                          && p.projectId == a.currentProject.value.id) ==>
      r.value.CaseId? && r.value.id != 0
  {
    if a.connectionData.None? then Step(a, s, NullReference)
    else
      var created := CreateTestCase(s, a.connectionData.value.user, a.testSuiteId,
                                    testName, a.testProjectId, testDescription);
      var reply := created.value;
      if reply.additionalInfo.None? then Step(a, created.server, NullReference)
      else if !reply.status then Step(a, created.server, CaseId(0))
      else if a.currentProject.None? then Step(a, created.server, NullReference)
      else
        var info := reply.additionalInfo.value;
        var linked := AddTestCaseToTestPlan(created.server, a.currentProject.value.id,
                                            a.testPlanId,
                                            ExternalRef(a.currentProject.value.prefix,
                                                        info.externalId),
                                            info.version, a.platformId);
        if linked.value == 0 then Step(a, linked.server, CaseId(0))
        else Step(a, linked.server, CaseId(info.id))
  }

  // ---------------------------------------------------------------- connection

  /** `basicConnection`: a new proxy for the data's key and URL, the plan list cleared, and
      the project list fetched; a failed fetch is kept as `LastException`. */
  function BasicConnection(a: Adaptor, s: Server, connection: ConnectionData): (r: Step<bool>)
    ensures r.server == Logged(s, ListProjects(Endpoint(connection.devKey, connection.url)))
    ensures r.value <==> connection.url == s.url && connection.devKey in s.devKeys
    ensures r.adaptor == a.(proxy := Some(Endpoint(connection.devKey, connection.url)),
                            allTestPlans := [],
                            allProjects := if r.value then s.projects else a.allProjects,
                            lastException := r.adaptor.lastException)
    ensures r.adaptor.lastException.None? <==> r.value
  {
    var a1 := a.(lastException := None, proxy := Some(Endpoint(connection.devKey, connection.url)),
                 allTestPlans := []);
    var probe := GetProjects(s, a1.proxy.value);
    match probe.value
    case Success(projects) => Step(a1.(allProjects := projects), probe.server, true)
    case Failure(message) => Step(a1.(lastException := Some(message)), probe.server, false)
  }

  /** `UpdateConnectionData`: null clears the data and the connection. Data equal (field by
      field) to what is held, where nothing held counts as all-empty data, keeps the previous
      validity without a request; other data is probed. The new data is held in every
      non-null case. The selection and its ids are not touched. */
  function UpdateConnectionData(a: Adaptor, s: Server, newData: Option<ConnectionData>)
    : (r: Step<bool>)
    ensures r.value == r.adaptor.basicConnectionValid
    ensures newData.None? ==>
      r == Step(a.(basicConnectionValid := false, connectionData := None), s, false)
    ensures newData.Some? ==> r.adaptor.connectionData == newData
    ensures newData.Some? && a.connectionData.GetOr(DefaultConnectionData()) == newData.value ==>
      r == Step(a.(connectionData := newData), s, a.basicConnectionValid)
    ensures newData.Some? && a.connectionData.GetOr(DefaultConnectionData()) != newData.value ==>
      && r.server == Logged(s, ListProjects(Endpoint(newData.value.devKey, newData.value.url)))
      && (r.value <==> newData.value.url == s.url && newData.value.devKey in s.devKeys)
      && (!r.value ==> r.adaptor.lastException.Some?)
    ensures Extends(s, r.server) && r.server == s.(log := r.server.log)
    ensures Inv(a) ==> Inv(r.adaptor)
    ensures Resolved(a) ==> Resolved(r.adaptor)
    ensures r.adaptor.(basicConnectionValid := a.basicConnectionValid, connectionData := a.connectionData,
                       lastException := a.lastException, proxy := a.proxy,
                       allProjects := a.allProjects, allTestPlans := a.allTestPlans) == a
  {
    if newData.None? then
      Step(a.(basicConnectionValid := false, connectionData := None), s, false)
    else
      var held := a.connectionData.GetOr(DefaultConnectionData());
      ConnectionEqualsIsIdentity(held, newData.value);
      if !ConnectionEquals(held, newData.value) then
        var probe := BasicConnection(a, s, newData.value);
        Step(probe.adaptor.(basicConnectionValid := probe.value, connectionData := newData),
             probe.server, probe.value)
      else
        Step(a.(connectionData := newData), s, a.basicConnectionValid)
  }

  // ---------------------------------------------------------------- selection

  /** Which steps of an update look their name up again; a step that does not only checks
      that the id it already holds is non-zero. */
  datatype Changes = Changes(project: bool, plan: bool, suite: bool, platform: bool, build: bool)

  /** As the source decides: a step runs exactly when its own name differs from the one
      accepted before. */
  function ChangesAsWritten(accepted: ProjectData, n: ProjectData): Changes {
    Changes(accepted.project != n.project, accepted.testplan != n.testplan,
            accepted.testsuite != n.testsuite, accepted.platform != n.platform,
            accepted.build != n.build)
  }

  /** Corrected: the ids that depend on a changed name are looked up again as well. Another
      project has other plans and suites; another plan has other platforms and builds. */
  function ChangesCascading(accepted: ProjectData, n: ProjectData): Changes {
    var c := ChangesAsWritten(accepted, n);
    Changes(c.project, c.project || c.plan, c.project || c.suite,
            c.project || c.plan || c.platform, c.project || c.plan || c.build)
  }

  /** The project step: a changed project name is looked up among the probed projects and
      its plans are fetched; an unchanged name passes exactly when its id is non-zero. */
  function ResolveProject(a: Adaptor, s: Server, changed: bool, name: string): (r: Step<bool>)
    ensures !changed ==> r == Step(a, s, a.testProjectId != 0)
    ensures changed ==>
      && r.adaptor == a.(testProjectId := r.adaptor.testProjectId,
                         testPlanId := r.adaptor.testPlanId,
                         testSuiteId := r.adaptor.testSuiteId,
                         currentProject := r.adaptor.currentProject,
                         allTestPlans := r.adaptor.allTestPlans)
      && (r.value <==> r.adaptor.testProjectId != 0)
      && (!r.value ==> r.adaptor.testPlanId == 0 && r.adaptor.testSuiteId == 0)
      && (r.value ==> exists k :: IsFirst(a.allProjects, k, (p: Project) => p.name == name)
                                && a.allProjects[k].name == name)
      && (forall k :: IsFirst(a.allProjects, k, (p: Project) => p.name == name) ==>
            && r.adaptor.currentProject == Some(a.allProjects[k])
            && r.adaptor.testProjectId == a.allProjects[k].id
            && r.server == Logged(s, ListPlans(a.allProjects[k].id))
            && r.adaptor.allTestPlans == PlansOf(s, a.allProjects[k].id))
      && ((forall k :: 0 <= k < |a.allProjects| ==> a.allProjects[k].name != name) ==>
            !r.value && r.server == s && r.adaptor.allTestPlans == [])
    ensures Extends(s, r.server)
  {
    if changed then
      var a1 := a.(testProjectId := 0, allTestPlans := []);
      var hit := FirstIndex(a.allProjects, (p: Project) => p.name == name);
      if hit.None? then Step(a1.(testPlanId := 0, testSuiteId := 0), s, false)
      else
        var project := a.allProjects[hit.value];
        var plans := GetProjectTestPlans(s, project.id);
        var a2 := a1.(currentProject := Some(project), testProjectId := project.id,
                      allTestPlans := plans.value);
        if project.id == 0 then Step(a2.(testPlanId := 0, testSuiteId := 0), plans.server, false)
        else Step(a2, plans.server, true)
    else Step(a, s, a.testProjectId != 0)
  }

  /** The plan step: a changed plan name is looked up among the project's plans already in
      hand, so it makes no request. */
  function ResolvePlan(a: Adaptor, s: Server, changed: bool, name: string): (r: Step<bool>)
    ensures !changed ==> r == Step(a, s, a.testPlanId != 0)
    ensures r.server == s
    ensures changed ==>
      && r.adaptor == a.(testPlanId := r.adaptor.testPlanId, testSuiteId := r.adaptor.testSuiteId)
      && (r.value <==> r.adaptor.testPlanId != 0)
      && (r.value ==> r.adaptor.testSuiteId == a.testSuiteId)
      && (!r.value ==> r.adaptor.testPlanId == 0 && r.adaptor.testSuiteId == 0)
      && (r.value ==> exists k :: IsFirst(a.allTestPlans, k, (t: TestPlan) => t.name == name)
                                && a.allTestPlans[k].name == name)
      && (forall k :: IsFirst(a.allTestPlans, k, (t: TestPlan) => t.name == name) ==>
            r.adaptor.testPlanId == a.allTestPlans[k].id)
      && ((forall k :: 0 <= k < |a.allTestPlans| ==> a.allTestPlans[k].name != name) ==>
            !r.value)
  {
    if changed then
      var hit := FirstIndex(a.allTestPlans, (t: TestPlan) => t.name == name);
      var id := if hit.Some? then a.allTestPlans[hit.value].id else 0;
      if id == 0 then Step(a.(testPlanId := 0, testSuiteId := 0), s, false)
      else Step(a.(testPlanId := id), s, true)
    else Step(a, s, a.testPlanId != 0)
  }

  /** The suite step: a changed suite path is walked, creating missing suites. On a
      well-formed server an existing path is reused as it is, and the step fails only on a
      creation the server refuses. */
  function ResolveSuite(a: Adaptor, s: Server, changed: bool, path: string): (r: Step<bool>)
    ensures !changed ==> r == Step(a, s, a.testSuiteId != 0)
    ensures r.adaptor == a.(testSuiteId := r.adaptor.testSuiteId)
    ensures r.value <==> r.adaptor.testSuiteId != 0
    ensures Extends(s, r.server) && r.server.cases == s.cases && r.server.features == s.features
    ensures Wellformed(s) ==> Wellformed(r.server)
    ensures changed && Wellformed(s) && r.value ==>
      IsSuitePath(r.server.suites, r.adaptor.testSuiteId, a.testProjectId, Split(path, '.'))
    ensures changed && Wellformed(s) && !r.value ==> RefusedLastCreate(s, r.server)
    ensures changed && Wellformed(s) && SiblingNamesDistinct(s.suites) ==>
      forall id :: IsSuitePath(s.suites, id, a.testProjectId, Split(path, '.')) ==>
        r.adaptor.testSuiteId == id && r.server == s.(log := r.server.log)
  {
    if changed then
      var walk := GetTestSuiteId(s, a.testProjectId, path, true);
      assert Wellformed(s) && SiblingNamesDistinct(s.suites) ==>
        forall id :: IsSuitePath(s.suites, id, a.testProjectId, Split(path, '.')) ==>
          walk.value == id && walk.server == s.(log := walk.server.log)
      by {
        forall id | Wellformed(s) && SiblingNamesDistinct(s.suites)
                    && IsSuitePath(s.suites, id, a.testProjectId, Split(path, '.'))
          ensures walk.value == id && walk.server == s.(log := walk.server.log)
        {
          ExistingPathIsReused(s, a.testProjectId, path, true, id);
        }
      }
      Step(a.(testSuiteId := walk.value), walk.server, walk.value != 0)
    else Step(a, s, a.testSuiteId != 0)
  }

  /** The platform step: a changed platform name is looked up among the plan's platforms. */
  function ResolvePlatform(a: Adaptor, s: Server, changed: bool, name: string): (r: Step<bool>)
    ensures !changed ==> r == Step(a, s, a.platformId != 0)
    ensures r.adaptor == a.(platformId := r.adaptor.platformId)
    ensures r.value <==> r.adaptor.platformId != 0
    ensures changed ==>
      r.adaptor.platformId == GetPlatformId(s, a.testPlanId, name).value
      && r.server == Logged(s, ListPlatforms(a.testPlanId))
  {
    if changed then
      var platform := GetPlatformId(s, a.testPlanId, name);
      Step(a.(platformId := platform.value), platform.server, platform.value != 0)
    else Step(a, s, a.platformId != 0)
  }

  /** The build step: a changed build name fetches the plan's builds; none at all fails;
      a non-empty name takes the first build so named, a null or empty name the last build
      of the list; a missing build, or one not both active and open, fails. */
  function ResolveBuild(a: Adaptor, s: Server, changed: bool, name: Option<string>)
    : (r: Step<bool>)
    ensures !changed ==> r == Step(a, s, a.testBuildId != 0)
    ensures r.adaptor == a.(testBuildId := r.adaptor.testBuildId)
    ensures changed ==>
      var bs := BuildsOf(s, a.testPlanId);
      && r.server == Logged(s, ListBuilds(a.testPlanId))
      && (|bs| == 0 ==> !r.value && r.adaptor == a)
      && (|bs| > 0 && (name.None? || name.value == "") ==>
            && r.adaptor.testBuildId == bs[|bs| - 1].id
            && (r.value <==> bs[|bs| - 1].active && bs[|bs| - 1].isOpen))
      && (|bs| > 0 && name.Some? && name.value != "" ==>
            && (r.value <==>
                  exists k :: IsFirst(bs, k, (b: Build) => b.name == name.value)
                           && bs[k].active && bs[k].isOpen)
            && (forall k :: IsFirst(bs, k, (b: Build) => b.name == name.value) ==>
                  r.adaptor.testBuildId == bs[k].id)
            && ((forall k :: 0 <= k < |bs| ==> bs[k].name != name.value) ==>
                  !r.value && r.adaptor == a))
  {
    if changed then
      var builds := GetBuildsForTestPlan(s, a.testPlanId);
      var bs := builds.value;
      if |bs| == 0 then Step(a, builds.server, false)
      else if name.Some? && name.value != "" then
        var hit := FirstIndex(bs, (b: Build) => b.name == name.value);
        if hit.None? then Step(a, builds.server, false)
        else
          var b := bs[hit.value];
          Step(a.(testBuildId := b.id), builds.server, b.active && b.isOpen)
      else
        var b := bs[|bs| - 1];
        Step(a.(testBuildId := b.id), builds.server, b.active && b.isOpen)
    else Step(a, s, a.testBuildId != 0)
  }

  /** The selection held before an update: the accepted one, or all-empty names when none
      has been accepted yet. */
  function Accepted(a: Adaptor): ProjectData {
    a.projectData.GetOr(DefaultProjectData())
  }

  /** Some step that will not look its name up again holds an id of 0, which it takes as a
      name that was wrong and has not changed. */
  ghost predicate UnchangedZero(a: Adaptor, c: Changes) {
    || (!c.plan && a.testPlanId == 0) || (!c.suite && a.testSuiteId == 0)
    || (!c.platform && a.platformId == 0) || (!c.build && a.testBuildId == 0)
  }

  /** The plan id is that of a plan named `name` of the project whose id is held. */
  ghost predicate PlanMatches(a: Adaptor, s: Server, name: string) {
    exists t :: t in s.plans && t.id == a.testPlanId && t.projectId == a.testProjectId
              && t.name == name
  }

  /** The platform id is that of the first platform named `name` of the plan whose id is
      held. */
  ghost predicate PlatformMatches(a: Adaptor, s: Server, name: string) {
    exists k :: IsFirst(PlatformsOf(s, a.testPlanId), k, (p: Platform) => p.name == name)
                && PlatformsOf(s, a.testPlanId)[k].id == a.platformId
  }

  /** The build id is that of the build the build step chooses for `name` among the builds
      of the plan whose id is held, and that build is active and open. */
  ghost predicate BuildMatches(a: Adaptor, s: Server, name: Option<string>) {
    exists k :: ChosenBuild(BuildsOf(s, a.testPlanId), name, k)
                && BuildsOf(s, a.testPlanId)[k].id == a.testBuildId
                && BuildsOf(s, a.testPlanId)[k].active && BuildsOf(s, a.testPlanId)[k].isOpen
  }

  /** The held ids are the ones the names of `n` denote on `s`. */
  ghost predicate IdsMatch(a: Adaptor, s: Server, n: ProjectData) {
    PlanMatches(a, s, n.testplan) && PlatformMatches(a, s, n.platform) && BuildMatches(a, s, n.build)
  }

  /** What a successful update holds for a choice of changes `c`: a step that looked its
      name up again holds the server's first match for the new name (the chosen build, the
      suite the path names), and a step that did not keeps the id it held before. */
  ghost predicate FollowsChanges(a: Adaptor, s: Server, n: ProjectData, c: Changes,
                                 r: Step<bool>) {
    r.value ==>
      && (!c.project ==> r.adaptor.testProjectId == a.testProjectId)
      && (c.project ==>
            && (exists k :: IsFirst(a.allProjects, k, (p: Project) => p.name == n.project)
                            && a.allProjects[k].id == r.adaptor.testProjectId)
            && r.adaptor.allTestPlans == PlansOf(s, r.adaptor.testProjectId))
      && (!c.plan ==> r.adaptor.testPlanId == a.testPlanId)
      && (c.plan ==>
            exists k :: IsFirst(r.adaptor.allTestPlans, k, (t: TestPlan) => t.name == n.testplan)
                        && r.adaptor.allTestPlans[k].id == r.adaptor.testPlanId)
      && (!c.suite ==> r.adaptor.testSuiteId == a.testSuiteId)
      && (c.suite && Wellformed(s) ==>
            IsSuitePath(r.server.suites, r.adaptor.testSuiteId, r.adaptor.testProjectId,
                        Split(n.testsuite, '.')))
      && (!c.platform ==> r.adaptor.platformId == a.platformId)
      && (c.platform ==> PlatformMatches(r.adaptor, s, n.platform))
      && (!c.build ==> r.adaptor.testBuildId == a.testBuildId)
      && (c.build ==> BuildMatches(r.adaptor, s, n.build))
  }

  /** The body of `UpdateProjectData`, for a given choice of the steps that look their name
      up again. Without a working connection every id but the platform's is zeroed and the
      selection marked invalid. Otherwise the steps run in the order project, plan, suite,
      platform, build; the first failing step ends the update with false, and only an update
      through all five steps accepts the new selection and marks it valid. A failing step
      leaves `projectDataValid` as it was. */
  function UpdateWith(a: Adaptor, s: Server, n: ProjectData, c: Changes): (r: Step<bool>)
    ensures !a.basicConnectionValid ==>
      r == Step(a.(testProjectId := 0, testPlanId := 0, testSuiteId := 0, testBuildId := 0,
                   projectDataValid := false), s, false)
    ensures a.basicConnectionValid ==>
      && r.adaptor.projectData == Some(if r.value then n else Accepted(a))
      && r.adaptor.projectDataValid == (r.value || a.projectDataValid)
    ensures r.adaptor.basicConnectionValid == a.basicConnectionValid
    ensures r.adaptor.connectionData == a.connectionData && r.adaptor.proxy == a.proxy
    ensures r.adaptor.lastException == a.lastException && r.adaptor.allProjects == a.allProjects
    ensures Extends(s, r.server) && r.server.cases == s.cases && r.server.features == s.features
    ensures Wellformed(s) ==> Wellformed(r.server)
    ensures r.value ==> AllResolved(r.adaptor, Wellformed(s))
    ensures a.basicConnectionValid && !c.project && a.testProjectId == 0 ==>
      !r.value && r.server == s
    ensures r.value && c.project && c.plan ==> PlanMatches(r.adaptor, s, n.testplan)
    ensures UnchangedZero(a, c) ==> !r.value
    ensures FollowsChanges(a, s, n, c, r)
  {
    if !a.basicConnectionValid then
      Step(a.(testProjectId := 0, testPlanId := 0, testSuiteId := 0, testBuildId := 0,
              projectDataValid := false), s, false)
    else
      var accepted := Accepted(a);
      var project := ResolveProject(a.(projectData := Some(accepted)), s, c.project, n.project);
      if !project.value then project
      else
        var rest := ResolveFromPlan(project.adaptor, project.server, c, n);
        ExtendsTransitive(s, project.server, rest.server);
        PlansOfProject(a.(projectData := Some(accepted)), s, n, c, project, rest);
        if !rest.value then rest
        else
          StepsFollowChanges(a, s, n, c, project, rest);
          Step(rest.adaptor.(projectData := Some(n), projectDataValid := true), rest.server, true)
  }

  /** Either update keeps the adaptor invariant: a working connection has its proxy and
      data, an accepted selection is held, and a project id comes with its project. */
  lemma UpdateWithKeepsInv(a: Adaptor, s: Server, n: ProjectData, c: Changes)
    ensures Inv(a) ==> Inv(UpdateWith(a, s, n, c).adaptor)
  {
  }

  /** After a changed project, the plans in hand are the project's, so a plan looked up
      among them is one of its plans. */
  lemma PlansOfProject(a: Adaptor, s: Server, n: ProjectData, c: Changes, project: Step<bool>,
                       rest: Step<bool>)
    requires project == ResolveProject(a, s, c.project, n.project) && project.value
    requires rest == ResolveFromPlan(project.adaptor, project.server, c, n)
    ensures rest.value && c.project && c.plan ==> PlanMatches(rest.adaptor, s, n.testplan)
  {
    if rest.value && c.project && c.plan {
      FromPlanFollows(project.adaptor, project.server, c, n);
      var k :| IsFirst(a.allProjects, k, (p: Project) => p.name == n.project);
      var plans := project.adaptor.allTestPlans;
      var j :| 0 <= j < |plans| && plans[j].name == n.testplan
               && plans[j].id == rest.adaptor.testPlanId;
      assert plans[j] in s.plans;
    }
  }

  /** The steps of a successful update, each as its own contract states it, add up to
      `FollowsChanges`. */
  lemma StepsFollowChanges(a: Adaptor, s: Server, n: ProjectData, c: Changes,
                           project: Step<bool>, rest: Step<bool>)
    requires project == ResolveProject(a.(projectData := Some(Accepted(a))), s, c.project, n.project)
    requires project.value
    requires rest == ResolveFromPlan(project.adaptor, project.server, c, n) && rest.value
    ensures FollowsChanges(a, s, n, c,
                           Step(rest.adaptor.(projectData := Some(n), projectDataValid := true),
                                rest.server, true))
  {
    FromPlanFollows(project.adaptor, project.server, c, n);
    assert BuildsOf(project.server, rest.adaptor.testPlanId) == BuildsOf(s, rest.adaptor.testPlanId);
    assert PlatformsOf(project.server, rest.adaptor.testPlanId)
        == PlatformsOf(s, rest.adaptor.testPlanId);
    assert project.server == s.(log := project.server.log);
    assert Wellformed(s) ==> Wellformed(project.server);
    if c.plan {
      var plans := project.adaptor.allTestPlans;
      var k :| IsFirst(plans, k, (t: TestPlan) => t.name == n.testplan)
               && plans[k].name == n.testplan && plans[k].id == rest.adaptor.testPlanId;
      assert rest.adaptor.allTestPlans == plans;
    }
  }

  /** `UpdateProjectData` exactly as written: each step looks its name up again only when
      that name changed. */
  function UpdateProjectDataAsWritten(a: Adaptor, s: Server, n: ProjectData): (r: Step<bool>)
    ensures !a.basicConnectionValid ==>
      r == Step(a.(testProjectId := 0, testPlanId := 0, testSuiteId := 0, testBuildId := 0,
                   projectDataValid := false), s, false)
    ensures a.basicConnectionValid ==>
      && r.adaptor.projectData == Some(if r.value then n else Accepted(a))
      && r.adaptor.projectDataValid == (r.value || a.projectDataValid)
    ensures Extends(s, r.server) && r.server.cases == s.cases && r.server.features == s.features
    ensures r.value ==> AllResolved(r.adaptor, Wellformed(s))
    ensures a.basicConnectionValid && Accepted(a).project == n.project && a.testProjectId == 0 ==>
      !r.value && r.server == s
    ensures FollowsChanges(a, s, n, ChangesAsWritten(Accepted(a), n), r)
  {
    UpdateWith(a, s, n, ChangesAsWritten(Accepted(a), n))
  }

  /** Every id of the selection is non-zero; the build's is only known to be when the
      server's build ids are positive. */
  ghost predicate AllResolved(a: Adaptor, positiveBuilds: bool) {
    && a.testProjectId != 0 && a.testPlanId != 0 && a.testSuiteId != 0 && a.platformId != 0
    && (positiveBuilds ==> a.testBuildId != 0)
  }

  /** The steps after the project: plan, suite, platform, build. */
  function ResolveFromPlan(a: Adaptor, s: Server, c: Changes, n: ProjectData): (r: Step<bool>)
    requires a.testProjectId != 0
    ensures r.adaptor == a.(testPlanId := r.adaptor.testPlanId, testSuiteId := r.adaptor.testSuiteId,
                            platformId := r.adaptor.platformId, testBuildId := r.adaptor.testBuildId)
    ensures Extends(s, r.server) && r.server.cases == s.cases && r.server.features == s.features
    ensures Wellformed(s) ==> Wellformed(r.server)
    ensures r.value ==> AllResolved(r.adaptor, Wellformed(s))
    ensures UnchangedZero(a, c) ==> !r.value
  {
    var plan := ResolvePlan(a, s, c.plan, n.testplan);
    if !plan.value then plan
    else
      var rest := ResolveFromSuite(plan.adaptor, plan.server, c, n);
      rest
  }

  /** The steps after the plan: suite, platform, build. */
  function ResolveFromSuite(a: Adaptor, s: Server, c: Changes, n: ProjectData): (r: Step<bool>)
    requires a.testProjectId != 0 && a.testPlanId != 0
    ensures r.adaptor == a.(testSuiteId := r.adaptor.testSuiteId,
                            platformId := r.adaptor.platformId, testBuildId := r.adaptor.testBuildId)
    ensures Extends(s, r.server) && r.server.cases == s.cases && r.server.features == s.features
    ensures Wellformed(s) ==> Wellformed(r.server)
    ensures r.value ==> AllResolved(r.adaptor, Wellformed(s))
    ensures UnchangedZero(a, c.(plan := true)) ==> !r.value
  {
    var suite := ResolveSuite(a, s, c.suite, n.testsuite);
    if !suite.value then suite
    else
      var rest := ResolveFromPlatform(suite.adaptor, suite.server, c, n);
      ExtendsTransitive(s, suite.server, rest.server);
      rest
  }

  /** The last two steps, platform then build, which make at most the plan's platform list
      request and its build list request. */
  function ResolveFromPlatform(a: Adaptor, s: Server, c: Changes, n: ProjectData)
    : (r: Step<bool>)
    requires a.testProjectId != 0 && a.testPlanId != 0 && a.testSuiteId != 0
    ensures r.adaptor == a.(platformId := r.adaptor.platformId, testBuildId := r.adaptor.testBuildId)
    ensures Extends(s, r.server) && r.server == s.(log := r.server.log)
    ensures |r.server.log| <= |s.log| + 2
    ensures forall i :: |s.log| <= i < |r.server.log| ==>
      r.server.log[i] == ListPlatforms(a.testPlanId) || r.server.log[i] == ListBuilds(a.testPlanId)
    ensures r.value ==> AllResolved(r.adaptor, Wellformed(s))
    ensures UnchangedZero(a, c.(plan := true, suite := true)) ==> !r.value
  {
    var platform := ResolvePlatform(a, s, c.platform, n.platform);
    if !platform.value then platform
    else
      var build := ResolveBuild(platform.adaptor, platform.server, c.build, n.build);
      BuildIdPositive(platform.server, platform.adaptor, build, c.build, n.build);
      build
  }

  /** A build taken from a well-formed server has a positive id, and a build step that
      looked the build up and succeeded holds one of the plan's active, open builds. */
  lemma BuildIdPositive(s: Server, a: Adaptor, r: Step<bool>, changed: bool, name: Option<string>)
    requires r == ResolveBuild(a, s, changed, name)
    ensures Wellformed(s) && r.value && changed ==> r.adaptor.testBuildId > 0
    ensures r.value && changed ==> BuildMatches(r.adaptor, s, name)
  {
    if r.value && changed {
      var bs := BuildsOf(s, a.testPlanId);
      if name.Some? && name.value != "" {
        var k :| IsFirst(bs, k, (b: Build) => b.name == name.value) && bs[k].active && bs[k].isOpen;
        assert bs[k] in bs;
        assert ChosenBuild(bs, name, k);
      } else {
        assert bs[|bs| - 1] in bs;
        assert ChosenBuild(bs, name, |bs| - 1);
      }
      if Wellformed(s) {
        assert a.testPlanId in s.builds;
        assert forall k :: 0 <= k < |bs| ==> bs[k] in s.builds[a.testPlanId];
      }
    }
  }

  /** The platform and build steps: a step that looked its name up holds the plan's first
      platform of that name, or the build chosen for the build name; one that did not
      keeps its id. */
  lemma FromPlatformFollows(a: Adaptor, s: Server, c: Changes, n: ProjectData)
    requires a.testProjectId != 0 && a.testPlanId != 0 && a.testSuiteId != 0
    ensures var r := ResolveFromPlatform(a, s, c, n);
      r.value ==>
        && (!c.platform ==> r.adaptor.platformId == a.platformId)
        && (c.platform ==> PlatformMatches(r.adaptor, s, n.platform))
        && (!c.build ==> r.adaptor.testBuildId == a.testBuildId)
        && (c.build ==> BuildMatches(r.adaptor, s, n.build))
  {
    var platform := ResolvePlatform(a, s, c.platform, n.platform);
    if platform.value {
      var build := ResolveBuild(platform.adaptor, platform.server, c.build, n.build);
      BuildIdPositive(platform.server, platform.adaptor, build, c.build, n.build);
      assert BuildsOf(platform.server, a.testPlanId) == BuildsOf(s, a.testPlanId);
    }
  }

  /** The suite, platform and build steps: a suite path looked up again names the suite
      held, and an unchanged one keeps its id. */
  lemma FromSuiteFollows(a: Adaptor, s: Server, c: Changes, n: ProjectData)
    requires a.testProjectId != 0 && a.testPlanId != 0
    ensures var r := ResolveFromSuite(a, s, c, n);
      r.value ==>
        && (!c.suite ==> r.adaptor.testSuiteId == a.testSuiteId)
        && (c.suite && Wellformed(s) ==>
              IsSuitePath(r.server.suites, r.adaptor.testSuiteId, a.testProjectId,
                          Split(n.testsuite, '.')))
        && (!c.platform ==> r.adaptor.platformId == a.platformId)
        && (c.platform ==> PlatformMatches(r.adaptor, s, n.platform))
        && (!c.build ==> r.adaptor.testBuildId == a.testBuildId)
        && (c.build ==> BuildMatches(r.adaptor, s, n.build))
  {
    var suite := ResolveSuite(a, s, c.suite, n.testsuite);
    if suite.value {
      FromPlatformFollows(suite.adaptor, suite.server, c, n);
      assert BuildsOf(suite.server, a.testPlanId) == BuildsOf(s, a.testPlanId);
      assert PlatformsOf(suite.server, a.testPlanId) == PlatformsOf(s, a.testPlanId);
    }
  }

  /** The steps after the project: a plan name looked up again gives the first plan of that
      name among those in hand, and an unchanged one keeps its id. */
  lemma FromPlanFollows(a: Adaptor, s: Server, c: Changes, n: ProjectData)
    requires a.testProjectId != 0
    ensures var r := ResolveFromPlan(a, s, c, n);
      r.value ==>
        && (!c.plan ==> r.adaptor.testPlanId == a.testPlanId)
        && (c.plan ==>
              exists k :: IsFirst(a.allTestPlans, k, (t: TestPlan) => t.name == n.testplan)
                          && a.allTestPlans[k].name == n.testplan
                          && a.allTestPlans[k].id == r.adaptor.testPlanId)
        && (!c.suite ==> r.adaptor.testSuiteId == a.testSuiteId)
        && (c.suite && Wellformed(s) ==>
              IsSuitePath(r.server.suites, r.adaptor.testSuiteId, a.testProjectId,
                          Split(n.testsuite, '.')))
        && (!c.platform ==> r.adaptor.platformId == a.platformId)
        && (c.platform ==> PlatformMatches(r.adaptor, s, n.platform))
        && (!c.build ==> r.adaptor.testBuildId == a.testBuildId)
        && (c.build ==> BuildMatches(r.adaptor, s, n.build))
  {
    var plan := ResolvePlan(a, s, c.plan, n.testplan);
    if plan.value {
      FromSuiteFollows(plan.adaptor, plan.server, c, n);
    }
  }

  /** `UpdateProjectData` corrected twice: the failure paths mark the selection invalid, so
      afterwards the connection is valid exactly when this update succeeded; and the ids
      under a changed name are looked up again (`ChangesCascading`). */
  function UpdateProjectData(a: Adaptor, s: Server, n: ProjectData): (r: Step<bool>)
    ensures ConnectionValid(r.adaptor) <==> r.value
    ensures r.value ==> a.basicConnectionValid && r.adaptor.projectData == Some(n)
    ensures !a.basicConnectionValid ==>
      r == Step(a.(testProjectId := 0, testPlanId := 0, testSuiteId := 0, testBuildId := 0,
                   projectDataValid := false), s, false)
    ensures a.basicConnectionValid && !r.value ==> r.adaptor.projectData == Some(Accepted(a))
    ensures r.adaptor.basicConnectionValid == a.basicConnectionValid
    ensures r.adaptor.connectionData == a.connectionData && r.adaptor.proxy == a.proxy
    ensures Extends(s, r.server) && r.server.cases == s.cases && r.server.features == s.features
    ensures Wellformed(s) ==> Wellformed(r.server)
    ensures Inv(a) ==> Inv(r.adaptor)
    ensures Wellformed(s) ==> Resolved(r.adaptor)
    ensures a.basicConnectionValid && Accepted(a).project == n.project && a.testProjectId == 0 ==>
      !r.value && r.server == s
    ensures r.value && Accepted(a).project != n.project ==> IdsMatch(r.adaptor, s, n)
    ensures FollowsChanges(a, s, n, ChangesCascading(Accepted(a), n), r)
  {
    var r := UpdateWith(a, s, n, ChangesCascading(Accepted(a), n));
    UpdateWithKeepsInv(a, s, n, ChangesCascading(Accepted(a), n));
    if r.value then r else Step(r.adaptor.(projectDataValid := false), r.server, false)
  }

  // ---------------------------------------------------------------- properties

  /** The corrected update keeps the adaptor's promise: right after an update,
      `ConnectionValid` says whether that update succeeded. The update as written does not:
      after an accepted selection, a selection naming a project the server does not have is
      refused, the project id is reset to 0, and yet the connection still reads as valid, so
      results would be reported with the ids of a selection that no longer applies. */
  lemma AsWrittenKeepsStaleValidity(a: Adaptor, s: Server, n: ProjectData)
    requires ConnectionValid(a) && Accepted(a).project != n.project
    requires forall k :: 0 <= k < |a.allProjects| ==> a.allProjects[k].name != n.project
    ensures var r := UpdateProjectDataAsWritten(a, s, n);
      !r.value && ConnectionValid(r.adaptor) && r.adaptor.testProjectId == 0 && r.server == s
    ensures var r := UpdateProjectData(a, s, n);
      !r.value && !ConnectionValid(r.adaptor) && r.server == s
  {
  }

  /** Idempotence: once a selection is accepted, updating to the same selection again makes
      no request, changes nothing and succeeds. */
  lemma UpdateRepeatIsFree(a: Adaptor, s: Server, n: ProjectData)
    requires Wellformed(s)
    ensures var r := UpdateProjectData(a, s, n);
      r.value ==> UpdateProjectData(r.adaptor, r.server, n) == Step(r.adaptor, r.server, true)
  {
  }

  /** A first selection (nothing accepted before) is compared against empty names, so an
      empty platform name, or an empty build name, is taken as "unchanged" and its id 0 as
      "was wrong": such a first selection is refused without a request for that step. */
  lemma FirstSelectionNeedsPlatformAndBuild(a: Adaptor, s: Server, n: ProjectData)
    requires a.projectData.None?
    requires (n.platform == "" && a.platformId == 0) || (n.build == Some("") && a.testBuildId == 0)
    ensures !UpdateProjectDataAsWritten(a, s, n).value
  {
  }

  /** Changing only the build re-resolves only the build: the project, plan, suite and
      platform ids stay, and the one request made is the plan's build list. */
  lemma BuildChangeKeepsOtherIds(a: Adaptor, s: Server, n: ProjectData)
    requires a.basicConnectionValid && a.projectData.Some?
    requires n == a.projectData.value.(build := n.build)
    requires a.testProjectId != 0 && a.testPlanId != 0 && a.testSuiteId != 0 && a.platformId != 0
    ensures var r := UpdateProjectData(a, s, n);
      && r.adaptor.testProjectId == a.testProjectId && r.adaptor.testPlanId == a.testPlanId
      && r.adaptor.testSuiteId == a.testSuiteId && r.adaptor.platformId == a.platformId
      && (n.build != a.projectData.value.build ==> r.server == Logged(s, ListBuilds(a.testPlanId)))
      && (n.build == a.projectData.value.build ==> r.server == s)
  {
  }

  /** As written, a selection that changes only the project keeps the plan, suite, platform
      and build ids of the previous one: those names are unchanged and their ids non-zero,
      so the update succeeds, and the plan id it keeps is not a plan of the new project.
      The corrected update looks the plan up again, so when it succeeds the plan is one of
      the new project's plans with the selected name. */
  lemma AsWrittenKeepsStalePlan(a: Adaptor, s: Server, n: ProjectData, k: nat)
    requires a.basicConnectionValid && a.projectData.Some?
    requires n == a.projectData.value.(project := n.project)
    requires n.project != a.projectData.value.project
    requires a.testPlanId != 0 && a.testSuiteId != 0 && a.platformId != 0 && a.testBuildId != 0
    requires IsFirst(a.allProjects, k, (p: Project) => p.name == n.project)
    requires a.allProjects[k].id != 0
    requires forall t :: t in PlansOf(s, a.allProjects[k].id) ==> t.id != a.testPlanId
    ensures var r := UpdateProjectDataAsWritten(a, s, n);
      && r.value && r.adaptor.testProjectId == a.allProjects[k].id
      && r.adaptor.testPlanId == a.testPlanId && r.adaptor.testSuiteId == a.testSuiteId
      && !PlanMatches(r.adaptor, s, n.testplan)
    ensures var r := UpdateProjectData(a, s, n);
      r.value ==> PlanMatches(r.adaptor, s, n.testplan)
  {
    var c := ChangesAsWritten(Accepted(a), n);
    assert c == Changes(true, false, false, false, false);
    var project := ResolveProject(a.(projectData := Some(Accepted(a))), s, true, n.project);
    var p := a.allProjects[k];
    assert project.adaptor.testProjectId == p.id && project.value;
    assert project.adaptor.testPlanId == a.testPlanId;
    var rest := ResolveFromPlan(project.adaptor, project.server, c, n);
    assert rest == Step(project.adaptor, project.server, true);
    assert UpdateProjectDataAsWritten(a, s, n).adaptor.testPlanId == a.testPlanId;
  }

  /** The build the build step takes: the first of that name for a non-empty name, and
      otherwise the last of the plan's builds. */
  ghost predicate ChosenBuild(bs: seq<Build>, name: Option<string>, k: int) {
    if name.Some? && name.value != "" then IsFirst(bs, k, (b: Build) => b.name == name.value)
    else |bs| > 0 && k == |bs| - 1
  }

  /** When a selection is accepted. On a working connection, a selection naming another
      project than the accepted one is accepted when the first project with that name, the
      first of its plans with the plan name and the first of that plan's platforms with the
      platform name all have non-zero ids, the suite path names a stored suite, and the
      build chosen by name is active and open. The ids held afterwards are exactly those of
      these matches, and no suite is created. */
  lemma SelectionAccepted(a: Adaptor, s: Server, n: ProjectData, kp: nat, kt: nat,
                          suiteId: int, kf: nat, kb: nat)
    requires a.basicConnectionValid && Wellformed(s) && SiblingNamesDistinct(s.suites)
    requires Accepted(a).project != n.project
    requires IsFirst(a.allProjects, kp, (p: Project) => p.name == n.project)
    requires a.allProjects[kp].id != 0
    requires IsFirst(PlansOf(s, a.allProjects[kp].id), kt, (t: TestPlan) => t.name == n.testplan)
    requires PlansOf(s, a.allProjects[kp].id)[kt].id != 0
    requires IsSuitePath(s.suites, suiteId, a.allProjects[kp].id, Split(n.testsuite, '.'))
    requires var planId := PlansOf(s, a.allProjects[kp].id)[kt].id;
      && IsFirst(PlatformsOf(s, planId), kf, (p: Platform) => p.name == n.platform)
      && PlatformsOf(s, planId)[kf].id != 0
      && ChosenBuild(BuildsOf(s, planId), n.build, kb)
      && BuildsOf(s, planId)[kb].active && BuildsOf(s, planId)[kb].isOpen
    ensures var r := UpdateProjectData(a, s, n);
      var planId := PlansOf(s, a.allProjects[kp].id)[kt].id;
      && r.value && ConnectionValid(r.adaptor) && r.adaptor.projectData == Some(n)
      && r.adaptor.testProjectId == a.allProjects[kp].id
      && r.adaptor.testPlanId == planId
      && r.adaptor.testSuiteId == suiteId
      && r.adaptor.platformId == PlatformsOf(s, planId)[kf].id
      && r.adaptor.testBuildId == BuildsOf(s, planId)[kb].id
      && r.server.suites == s.suites
  {
    var c := ChangesCascading(Accepted(a), n);
    assert c == Changes(true, true, true, true, true);
    var a0 := a.(projectData := Some(Accepted(a)));
    var projectId := a.allProjects[kp].id;
    var project := ResolveProject(a0, s, true, n.project);
    assert project.value && project.adaptor.testProjectId == projectId;
    var plans := PlansOf(s, projectId);
    var planId := plans[kt].id;
    var plan := ResolvePlan(project.adaptor, project.server, true, n.testplan);
    assert plan.value && plan.adaptor.testPlanId == planId;
    var rest := FromSuiteAccepted(plan.adaptor, plan.server, c, n, s, suiteId, kf, kb);
    assert ResolveFromPlan(project.adaptor, project.server, c, n)
        == ResolveFromSuite(plan.adaptor, plan.server, c, n);
  }

  /** When an update that keeps the project is accepted, for any choice of the steps that
      look their name up again. On a working connection with a project in hand, it is
      accepted when every step succeeds: a looked-up plan is the first of the plans in hand
      with that name (`kt`) and a non-zero id, a looked-up suite path names a stored suite,
      a looked-up platform is the plan's first of that name (`kf`) with a non-zero id, a
      looked-up build is the one chosen for the build name (`kb`) and is active and open,
      and every step not looked up holds a non-zero id. The ids held afterwards are those
      matches and the kept ones, and no suite is created. */
  lemma SameProjectAccepted(a: Adaptor, s: Server, n: ProjectData, c: Changes,
                            kt: nat, suiteId: int, kf: nat, kb: nat)
    requires a.basicConnectionValid && !c.project && a.testProjectId != 0
    requires c.plan ==> IsFirst(a.allTestPlans, kt, (t: TestPlan) => t.name == n.testplan)
                        && a.allTestPlans[kt].id != 0
    requires !c.plan ==> a.testPlanId != 0
    requires c.suite ==> Wellformed(s) && SiblingNamesDistinct(s.suites)
                         && IsSuitePath(s.suites, suiteId, a.testProjectId, Split(n.testsuite, '.'))
    requires !c.suite ==> a.testSuiteId != 0
    requires LaterStepsResolve(a.(testPlanId := PlanHeld(a, c, kt)), s, c, n, kf, kb)
    ensures var r := UpdateWith(a, s, n, c);
      && r.value && r.adaptor.projectData == Some(n) && r.adaptor.projectDataValid
      && r.adaptor == Resolution(a.(testPlanId := PlanHeld(a, c, kt)), s, c, suiteId, kf, kb)
                        .(projectData := Some(n), projectDataValid := true)
      && r.server.suites == s.suites
  {
    var a0 := a.(projectData := Some(Accepted(a)));
    var held := a.(testPlanId := PlanHeld(a, c, kt));
    assert a0.(testPlanId := PlanHeld(a0, c, kt)) == held.(projectData := a0.projectData);
    assert LaterStepsResolve(held.(projectData := a0.projectData), s, c, n, kf, kb);
    var rest := FromPlanAccepted(a0, s, c, n, s, kt, suiteId, kf, kb);
    assert rest.adaptor == Resolution(held, s, c, suiteId, kf, kb).(projectData := a0.projectData);
    SameProjectUpdate(a, s, n, c);
  }

  /** An update that keeps a project in hand is the steps after the project, run on the
      adaptor with the accepted selection; their success accepts the new one. */
  lemma SameProjectUpdate(a: Adaptor, s: Server, n: ProjectData, c: Changes)
    requires a.basicConnectionValid && !c.project && a.testProjectId != 0
    ensures var rest := ResolveFromPlan(a.(projectData := Some(Accepted(a))), s, c, n);
      rest.value ==>
        UpdateWith(a, s, n, c)
          == Step(rest.adaptor.(projectData := Some(n), projectDataValid := true), rest.server, true)
  {
    var a0 := a.(projectData := Some(Accepted(a)));
    assert ResolveProject(a0, s, false, n.project) == Step(a0, s, true);
  }

  /** The converse of the success clauses of the corrected `UpdateProjectData` for a
      selection that keeps the project: it is accepted when every name it looks up again
      resolves (`SameProjectAccepted`), e.g. a new build name whose build is active and
      open. A changed plan makes the platform and build be looked up again. */
  lemma PartialSelectionAccepted(a: Adaptor, s: Server, n: ProjectData,
                                 kt: nat, suiteId: int, kf: nat, kb: nat)
    requires a.basicConnectionValid && Accepted(a).project == n.project && a.testProjectId != 0
    requires var c := ChangesCascading(Accepted(a), n);
      && (c.plan ==> IsFirst(a.allTestPlans, kt, (t: TestPlan) => t.name == n.testplan)
                     && a.allTestPlans[kt].id != 0)
      && (!c.plan ==> a.testPlanId != 0)
      && (c.suite ==> Wellformed(s) && SiblingNamesDistinct(s.suites)
                      && IsSuitePath(s.suites, suiteId, a.testProjectId, Split(n.testsuite, '.')))
      && (!c.suite ==> a.testSuiteId != 0)
      && LaterStepsResolve(a.(testPlanId := PlanHeld(a, c, kt)), s, c, n, kf, kb)
    ensures var c := ChangesCascading(Accepted(a), n);
      var r := UpdateProjectData(a, s, n);
      && r.value && ConnectionValid(r.adaptor) && r.adaptor.projectData == Some(n)
      && r.adaptor == Resolution(a.(testPlanId := PlanHeld(a, c, kt)), s, c, suiteId, kf, kb)
                        .(projectData := Some(n), projectDataValid := true)
      && r.server.suites == s.suites
  {
    SameProjectAccepted(a, s, n, ChangesCascading(Accepted(a), n), kt, suiteId, kf, kb);
  }

  /** The same converse for the update as written, where only the names that changed are
      looked up again. */
  lemma PartialSelectionAcceptedAsWritten(a: Adaptor, s: Server, n: ProjectData,
                                          kt: nat, suiteId: int, kf: nat, kb: nat)
    requires a.basicConnectionValid && Accepted(a).project == n.project && a.testProjectId != 0
    requires var c := ChangesAsWritten(Accepted(a), n);
      && (c.plan ==> IsFirst(a.allTestPlans, kt, (t: TestPlan) => t.name == n.testplan)
                     && a.allTestPlans[kt].id != 0)
      && (!c.plan ==> a.testPlanId != 0)
      && (c.suite ==> Wellformed(s) && SiblingNamesDistinct(s.suites)
                      && IsSuitePath(s.suites, suiteId, a.testProjectId, Split(n.testsuite, '.')))
      && (!c.suite ==> a.testSuiteId != 0)
      && LaterStepsResolve(a.(testPlanId := PlanHeld(a, c, kt)), s, c, n, kf, kb)
    ensures var c := ChangesAsWritten(Accepted(a), n);
      var r := UpdateProjectDataAsWritten(a, s, n);
      && r.value && ConnectionValid(r.adaptor) && r.adaptor.projectData == Some(n)
      && r.adaptor == Resolution(a.(testPlanId := PlanHeld(a, c, kt)), s, c, suiteId, kf, kb)
                        .(projectData := Some(n), projectDataValid := true)
      && r.server.suites == s.suites
  {
    SameProjectAccepted(a, s, n, ChangesAsWritten(Accepted(a), n), kt, suiteId, kf, kb);
  }

  /** A new build on every run: with the rest of the selection unchanged and resolved, a
      new build name whose build is the plan's first of that name, active and open, is
      accepted by either update, which holds that build's id and keeps every other id. */
  lemma NewBuildAccepted(a: Adaptor, s: Server, n: ProjectData, kb: nat)
    requires a.basicConnectionValid && a.projectData.Some?
    requires n == a.projectData.value.(build := n.build) && n.build != a.projectData.value.build
    requires a.testProjectId != 0 && a.testPlanId != 0 && a.testSuiteId != 0 && a.platformId != 0
    requires n.build.Some? && n.build.value != ""
    requires var bs := BuildsOf(s, a.testPlanId);
      IsFirst(bs, kb, (b: Build) => b.name == n.build.value) && bs[kb].active && bs[kb].isOpen
    ensures var r := UpdateProjectData(a, s, n);
      && r.value && r.adaptor.testBuildId == BuildsOf(s, a.testPlanId)[kb].id
      && r.adaptor.testProjectId == a.testProjectId && r.adaptor.testPlanId == a.testPlanId
      && r.adaptor.testSuiteId == a.testSuiteId && r.adaptor.platformId == a.platformId
    ensures UpdateProjectDataAsWritten(a, s, n) == UpdateProjectData(a, s, n)
  {
    var c := Changes(false, false, false, false, true);
    assert ChangesCascading(Accepted(a), n) == c && ChangesAsWritten(Accepted(a), n) == c;
    assert ChosenBuild(BuildsOf(s, a.testPlanId), n.build, kb);
    SameProjectAccepted(a, s, n, c, 0, 0, 0, kb);
  }

  /** The steps after the project, when each of them succeeds: a changed plan name has a
      first plan among those in hand with a non-zero id (`kt`), and an unchanged one a
      non-zero id; the later steps as in `FromSuiteAccepted`, for the plan then held. */
  lemma FromPlanAccepted(a: Adaptor, s': Server, c: Changes, n: ProjectData, s: Server,
                         kt: nat, suiteId: int, kf: nat, kb: nat)
    returns (r: Step<bool>)
    requires a.testProjectId != 0
    requires s' == s.(log := s'.log)
    requires c.plan ==> IsFirst(a.allTestPlans, kt, (t: TestPlan) => t.name == n.testplan)
                        && a.allTestPlans[kt].id != 0
    requires !c.plan ==> a.testPlanId != 0
    requires c.suite ==> Wellformed(s) && SiblingNamesDistinct(s.suites)
                         && IsSuitePath(s.suites, suiteId, a.testProjectId, Split(n.testsuite, '.'))
    requires !c.suite ==> a.testSuiteId != 0
    requires LaterStepsResolve(a.(testPlanId := PlanHeld(a, c, kt)), s, c, n, kf, kb)
    ensures r == ResolveFromPlan(a, s', c, n)
    ensures r.value && r.server.suites == s.suites
    ensures r.adaptor == Resolution(a.(testPlanId := PlanHeld(a, c, kt)), s, c, suiteId, kf, kb)
  {
    var plan := ResolvePlan(a, s', c.plan, n.testplan);
    assert plan.value && plan.adaptor == a.(testPlanId := PlanHeld(a, c, kt));
    r := FromSuiteAccepted(plan.adaptor, plan.server, c, n, s, suiteId, kf, kb);
  }

  /** The suite, platform and build steps when each of them succeeds: a changed suite path
      names a stored suite on a well-formed server with distinct sibling names, and an
      unchanged one holds a non-zero id; the platform and build as `LaterStepsResolve`
      states. The server differs from `s` only by its log, and no suite is created. */
  lemma FromSuiteAccepted(a: Adaptor, s': Server, c: Changes, n: ProjectData, s: Server,
                          suiteId: int, kf: nat, kb: nat)
    returns (r: Step<bool>)
    requires a.testProjectId != 0 && a.testPlanId != 0
    requires s' == s.(log := s'.log)
    requires c.suite ==> Wellformed(s) && SiblingNamesDistinct(s.suites)
                         && IsSuitePath(s.suites, suiteId, a.testProjectId, Split(n.testsuite, '.'))
    requires !c.suite ==> a.testSuiteId != 0
    requires LaterStepsResolve(a, s, c, n, kf, kb)
    ensures r == ResolveFromSuite(a, s', c, n)
    ensures r.value && r.server.suites == s.suites
    ensures r.adaptor == Resolution(a, s, c, suiteId, kf, kb)
  {
    var suite := ResolveSuite(a, s', c.suite, n.testsuite);
    assert suite.value && suite.server.suites == s.suites;
    assert suite.adaptor == a.(testSuiteId := if c.suite then suiteId else a.testSuiteId);
    r := FromPlatformAccepted(suite.adaptor, suite.server, c, n, s, kf, kb);
  }

  /** The platform and build steps when both succeed (`LaterStepsResolve`). */
  lemma FromPlatformAccepted(a: Adaptor, s': Server, c: Changes, n: ProjectData, s: Server,
                             kf: nat, kb: nat)
    returns (r: Step<bool>)
    requires a.testProjectId != 0 && a.testPlanId != 0 && a.testSuiteId != 0
    requires s' == s.(log := s'.log)
    requires LaterStepsResolve(a, s, c, n, kf, kb)
    ensures r == ResolveFromPlatform(a, s', c, n)
    ensures r.value && r.server.suites == s.suites
    ensures r.adaptor == Resolution(a, s, c, a.testSuiteId, kf, kb)
  {
    assert PlatformsOf(s', a.testPlanId) == PlatformsOf(s, a.testPlanId);
    var platform := ResolvePlatform(a, s', c.platform, n.platform);
    assert platform.value;
    var bs := BuildsOf(s, a.testPlanId);
    assert BuildsOf(platform.server, a.testPlanId) == bs;
    var build := ResolveBuild(platform.adaptor, platform.server, c.build, n.build);
    if c.build && n.build.Some? && n.build.value != "" {
      assert IsFirst(bs, kb, (b: Build) => b.name == n.build.value);
    }
    assert build.value;
    r := build;
  }

  /** The platform and build steps of an update will succeed for the plan whose id `a`
      holds: a changed platform name has a first platform of the plan (`kf`) with a non-zero
      id, a changed build name a chosen build (`kb`) that is active and open, and an
      unchanged name a non-zero id. */
  ghost predicate LaterStepsResolve(a: Adaptor, s: Server, c: Changes, n: ProjectData,
                                    kf: nat, kb: nat) {
    var platforms := PlatformsOf(s, a.testPlanId);
    var builds := BuildsOf(s, a.testPlanId);
    && (c.platform ==> IsFirst(platforms, kf, (p: Platform) => p.name == n.platform)
                       && platforms[kf].id != 0)
    && (!c.platform ==> a.platformId != 0)
    && (c.build ==> ChosenBuild(builds, n.build, kb) && builds[kb].active && builds[kb].isOpen)
    && (!c.build ==> a.testBuildId != 0)
  }

  /** The plan id held after the plan step: the plan at `kt` when the plan name changed. */
  ghost function PlanHeld(a: Adaptor, c: Changes, kt: nat): int {
    if c.plan && kt < |a.allTestPlans| then a.allTestPlans[kt].id else a.testPlanId
  }

  /** The adaptor after the suite, platform and build steps resolved as `FromSuiteAccepted`
      states: each changed step holds its match, each unchanged one its id. */
  ghost function Resolution(a: Adaptor, s: Server, c: Changes, suiteId: int, kf: nat, kb: nat)
    : Adaptor
  {
    var platforms := PlatformsOf(s, a.testPlanId);
    var builds := BuildsOf(s, a.testPlanId);
    a.(testSuiteId := if c.suite then suiteId else a.testSuiteId,
       platformId := if c.platform && kf < |platforms| then platforms[kf].id else a.platformId,
       testBuildId := if c.build && kb < |builds| then builds[kb].id else a.testBuildId)
  }

  /** When every name changes, the update as written and the corrected one look up the same
      names, make the same requests and agree on whether the selection is accepted. */
  lemma AllChangedAgree(a: Adaptor, s: Server, n: ProjectData)
    requires var o := Accepted(a);
      && o.project != n.project && o.testplan != n.testplan && o.testsuite != n.testsuite
      && o.platform != n.platform && o.build != n.build
    ensures var w := UpdateProjectDataAsWritten(a, s, n);
      var r := UpdateProjectData(a, s, n);
      r.value == w.value && r.server == w.server && (w.value ==> r == w)
  {
    assert ChangesCascading(Accepted(a), n) == ChangesAsWritten(Accepted(a), n);
  }

  /** A refused creation whose reply carries no `additionalInfo` dereferences null before
      its status is looked at. */
  lemma RefusedCreationWithoutInfoFails(a: Adaptor, s: Server, testName: string,
                                        testDescription: string)
    requires a.proxy.Some? && a.connectionData.Some?
    requires !HasCase(s, testName, a.testSuiteId) && testName in s.refusedNames
    requires s.rejectionInfo.None?
    ensures GetTestCaseId(a, s, testName, testDescription).value.NullReference?
  {
  }

  /** What a client of the adaptor can do to it: hand it connection data or a selection. */
  datatype Command = Connect(data: Option<ConnectionData>) | Select(selection: ProjectData)

  /** One command. A selection goes through the corrected `UpdateProjectData`; the update
      as written does not keep `Resolved` (`AsWrittenKeepsStaleValidity`). */
  function Apply(a: Adaptor, s: Server, c: Command): (r: Step<bool>)
    ensures Extends(s, r.server)
    ensures Wellformed(s) ==> Wellformed(r.server)
  {
    match c
    case Connect(data) => UpdateConnectionData(a, s, data)
    case Select(selection) => UpdateProjectData(a, s, selection)
  }

  /** The adaptor and server after a sequence of commands; the value is whether the
      connection is valid at the end. */
  function Replay(a: Adaptor, s: Server, cs: seq<Command>): Step<bool>
    decreases |cs|
  {
    if |cs| == 0 then Step(a, s, ConnectionValid(a))
    else
      var r := Apply(a, s, cs[0]);
      Replay(r.adaptor, r.server, cs[1..])
  }

  /** With the corrected `UpdateProjectData`, `Inv` and `Resolved` hold after any sequence
      of commands on a well-formed server, which therefore only ever grows by suites, cases
      and links and never receives a result report from these commands. */
  lemma {:induction false} ReplayKeepsInvariant(a: Adaptor, s: Server, cs: seq<Command>)
    requires Inv(a) && Resolved(a) && Wellformed(s)
    ensures var r := Replay(a, s, cs);
      Inv(r.adaptor) && Resolved(r.adaptor) && Wellformed(r.server) && Extends(s, r.server)
    decreases |cs|
  {
    if |cs| > 0 {
      var r := Apply(a, s, cs[0]);
      ReplayKeepsInvariant(r.adaptor, r.server, cs[1..]);
      ExtendsTransitive(s, r.server, Replay(r.adaptor, r.server, cs[1..]).server);
    }
  }

  /** With the corrected `UpdateProjectData`, every adaptor a client can reach from a fresh
      one reports a valid connection only with a selection in hand and every id resolved,
      so `RecordTheResult` always has what it reads. As written, a refused selection can
      leave the connection valid with a project id of 0 (`AsWrittenKeepsStaleValidity`). */
  lemma ReachableAdaptorIsResolved(s: Server, cs: seq<Command>)
    requires Wellformed(s)
    ensures var a := Replay(NewAdaptor(), s, cs).adaptor;
      ConnectionValid(a) ==>
        && a.projectData.Some? && a.proxy.Some? && a.connectionData.Some?
        && a.testProjectId != 0 && a.testPlanId != 0 && a.testSuiteId != 0
        && a.platformId != 0 && a.testBuildId != 0
        && a.currentProject.Some? && a.currentProject.value.id == a.testProjectId
  {
    ReplayKeepsInvariant(NewAdaptor(), s, cs);
  }
}

=== FILE: exporter.dfy ===
/** `ResultExporter`: the NUnit event listener that, once a run has finished, walks the
    result tree and reports every leaf whose fixture is configured for TestLink through the
    adaptor. Loading fixture configurations out of an assembly (reflection and config files)
    is a parameter: `load(path)` is what the assembly at `path` declares. */
module ResultExporter {
  import opened Wrappers
  import opened Text
  import opened Records
  import opened Remote
  import opened TestLinkAdaptor

  /** NUnit's `ResultState`. */
  datatype ResultState =
    | Inconclusive | NotRunnable | Skipped | Ignored | Success | Failure | Error | Cancelled

  /** NUnit's `TestResult`: a suite has sub-results, a test case has none. `description` and
      `message` may be null. */
  datatype TestResult = TestResult(
    name: string,
    fullName: string,
    methodName: string,
    description: Option<string>,
    state: ResultState,
    message: Option<string>,
    results: seq<TestResult>)

  /** `TestLinkFixtureAttribute`: where to report the results of one fixture class. Its
      `TestSuite` may be null (then the fixture's own name is used) and so may its build. */
  datatype Fixture = Fixture(
    url: string,
    devKey: string,
    user: string,
    projectName: string,
    testPlan: string,
    testSuite: Option<string>,
    platform: string,
    build: Option<string>,
    exportEnabled: bool)

  function ConnectionOf(f: Fixture): ConnectionData {
    ConnectionData(f.url, f.devKey, f.user)
  }

  function SelectionOf(f: Fixture): ProjectData {
    ProjectData(f.build, f.projectName, f.testPlan, f.testSuite.GetOr(""), f.platform)
  }

  /** The listener's state: fixtures by class name, the adaptor, and the output buffer. */
  datatype Exporter = Exporter(fixtures: map<string, Fixture>, adaptor: Adaptor,
                               currentTestOutput: string)

  /** The constructor, with the default configuration file left out. */
  function NewExporter(): (e: Exporter)
    ensures e.fixtures == map[] && e.currentTestOutput == "" && !ConnectionValid(e.adaptor)
    ensures Inv(e.adaptor) && Resolved(e.adaptor)
  {
    Exporter(map[], NewAdaptor(), "")
  }

  datatype Run = Run(exporter: Exporter, server: Server)

  // ---------------------------------------------------------------- the output buffer

  /** `TestStarted`: the buffer is emptied. */
  function TestStarted(e: Exporter): (r: Exporter)
    ensures r.currentTestOutput == "" && r.(currentTestOutput := e.currentTestOutput) == e
  {
    e.(currentTestOutput := "")
  }

  /** `TestOutput`: the buffer is replaced (not extended) by the text. */
  function TestOutput(e: Exporter, text: string): (r: Exporter)
    ensures r.currentTestOutput == text && r.(currentTestOutput := e.currentTestOutput) == e
  {
    e.(currentTestOutput := text)
  }

  /** The listener events that touch the buffer. */
  datatype Event = Started | Output(text: string)

  /** The listener after a stream of events, in order. */
  function Feed(e: Exporter, events: seq<Event>): Exporter
    decreases |events|
  {
    if |events| == 0 then e
    else
      var e1 := match events[0]
        case Started => TestStarted(e)
        case Output(text) => TestOutput(e, text);
      Feed(e1, events[1..])
  }

  /** What the buffer should hold: the text of the last event, "" when that was a start,
      and the previous contents when there was no event. */
  function LastText(events: seq<Event>, previous: string): string {
    if |events| == 0 then previous
    else match events[|events| - 1]
      case Started => ""
      case Output(text) => text
  }

  /** The buffer is a single slot: after any stream of events it holds exactly what the last
      event left, and nothing else of the listener changes. */
  lemma {:induction false} FeedKeepsLastText(e: Exporter, events: seq<Event>)
    ensures Feed(e, events).currentTestOutput == LastText(events, e.currentTestOutput)
    ensures Feed(e, events).(currentTestOutput := e.currentTestOutput) == e
    decreases |events|
  {
    if |events| > 0 {
      var e1 := match events[0]
        case Started => TestStarted(e)
        case Output(text) => TestOutput(e, text);
      FeedKeepsLastText(e1, events[1..]);
      if |events| > 1 {
        assert events[1..][|events[1..]| - 1] == events[|events| - 1];
      }
    }
  }

  // ---------------------------------------------------------------- names

  /** `extractTestFixture`: everything before the last '.', or "" when there is no '.' after
      the first character. */
  function ExtractTestFixture(path: string): (r: string)
    ensures r != "" ==>
      && |r| < |path| && path[..|r|] == r && path[|r|] == '.'
      && forall j :: |r| < j < |path| ==> path[j] != '.'
    ensures r == "" <==> forall j :: 1 <= j < |path| ==> path[j] != '.'
  {
    var index := LastIndexOf(path, '.');
    if index < 1 then "" else path[..index]
  }

  /** Round trip: the fixture of a test method's full name is the class it was built from. */
  lemma ExtractTestFixtureOfMethod(fixture: string, testMethod: string)
    requires fixture != "" && '.' !in testMethod
    ensures ExtractTestFixture(fixture + "." + testMethod) == fixture
  {
    var path := fixture + "." + testMethod;
    assert forall j :: |fixture| < j < |path| ==> path[j] == testMethod[j - |fixture| - 1];
    assert path[|fixture|] == '.';
    var r := ExtractTestFixture(path);
    assert r != "";
    assert path[..|fixture|] == fixture;
  }

  /** `IsDllPath`: the name ends in ".dll", in any letter case. */
  predicate IsDllPath(path: string)
    ensures IsDllPath(path) ==> |path| >= 4 && path[|path| - 4] == '.'
  {
    EndsWith(ToLower(path), ".dll")
  }

  /** The suffix test character by character: a '.', then 'd' or 'D', then two of 'l' or 'L'. */
  lemma IsDllPathExactly(path: string)
    ensures IsDllPath(path) <==>
      && |path| >= 4 && path[|path| - 4] == '.'
      && (path[|path| - 3] == 'd' || path[|path| - 3] == 'D')
      && (path[|path| - 2] == 'l' || path[|path| - 2] == 'L')
      && (path[|path| - 1] == 'l' || path[|path| - 1] == 'L')
  {
    if |path| >= 4 {
      var low := ToLower(path);
      var tail := low[|low| - 4..];
      assert tail == ".dll" <==>
        tail[0] == '.' && tail[1] == 'd' && tail[2] == 'l' && tail[3] == 'l';
      assert tail[0] == LowerChar(path[|path| - 4]);
      assert tail[1] == LowerChar(path[|path| - 3]);
      assert tail[2] == LowerChar(path[|path| - 2]);
      assert tail[3] == LowerChar(path[|path| - 1]);
    }
  }

  /** The name a result is reported under: a parameterised test's result is named after its
      arguments, so the method name and a '.' are put in front of it. */
  function TestCaseName(t: TestResult): (r: string)
    ensures EndsWith(r, t.name)
    ensures t.name == t.methodName ==> r == t.name
    ensures t.name != t.methodName ==>
      && |r| == |t.methodName| + 1 + |t.name|
      && r[..|t.methodName|] == t.methodName && r[|t.methodName|] == '.'
  {
    if t.name == t.methodName then t.name else t.methodName + "." + t.name
  }

  // ---------------------------------------------------------------- one result

  /** The TestLink status for an NUnit result: pass for a success, fail for a failure or an
      error, and blocked for everything else. */
  function StatusFor(state: ResultState): (r: ResultStatus)
    ensures r == Pass <==> state == ResultState.Success
    ensures r == Fail <==> state == ResultState.Failure || state == Error
    ensures r == Blocked <==> state != ResultState.Success && state != ResultState.Failure && state != Error
  {
    match state
    case NotRunnable => Blocked
    case Skipped => Blocked
    case Ignored => Blocked
    case Success => Pass
    case Failure => Fail
    case Error => Fail
    case _ => Blocked
  }

  const SkippedMarker: string := "++++ SKIPPED +++"
  const IgnoredMarker: string := "++++ IGNORED +++"

  /** The notes sent with a result: the message line (empty when there is none), the
      captured output line, and for a skipped or ignored test a marker line. */
  function Notes(message: Option<string>, output: string, state: ResultState): (r: string)
    ensures var head := Line(message.GetOr("")) + Line(output);
      && |head| <= |r| && r[..|head|] == head
      && (|r| > |head| <==> state == Skipped || state == Ignored)
      && (state == Skipped ==> r[|head|..] == Line(SkippedMarker))
      && (state == Ignored ==> r[|head|..] == Line(IgnoredMarker))
  {
    var head := Line(message.GetOr("")) + Line(output);
    match state
    case Skipped => head + Line(SkippedMarker)
    case Ignored => head + Line(IgnoredMarker)
    case _ => head
  }

  /** `sendResultToTestlink`: the case's result, with its status and notes, through
      `RecordTheResult`; the server's answer is only logged. */
  function SendResult(e: Exporter, s: Server, t: TestResult, testCaseId: int): (r: Run)
    requires ConnectionValid(e.adaptor) ==> e.adaptor.projectData.Some?
    ensures r.exporter == e
    ensures r.server == s.(log := r.server.log, executions := r.server.executions)
    ensures s.executions <= r.server.executions
    ensures ConnectionValid(e.adaptor) ==>
      r.server.log == s.log + [Report(testCaseId, e.adaptor.testPlanId, StatusFor(t.state),
                                      e.adaptor.projectData.value.platform,
                                      Notes(t.message, e.currentTestOutput, t.state),
                                      e.adaptor.testBuildId)]
    ensures !ConnectionValid(e.adaptor) ==> r.server == s
  {
    var sent := RecordTheResult(e.adaptor, s, testCaseId, StatusFor(t.state),
                                Notes(t.message, e.currentTestOutput, t.state));
    Run(e, sent.server)
  }

  /** `s2` is `s1` after requests that may have created suites, test cases and links and
      recorded executions: nothing was removed or rewritten. */
  ghost predicate Grows(s1: Server, s2: Server) {
    && s2 == s1.(suites := s2.suites, cases := s2.cases, features := s2.features,
                 executions := s2.executions, nextId := s2.nextId, log := s2.log)
    && s1.suites <= s2.suites && s1.cases <= s2.cases && s1.features <= s2.features
    && s1.executions <= s2.executions && s1.nextId <= s2.nextId && s1.log <= s2.log
  }

  /** A result report names a test case the server has, and a resolved plan and build. */
  ghost predicate SoundReport(s: Server, c: Call) {
    c.Report? ==>
      && (exists k :: 0 <= k < |s.cases| && s.cases[k].id == c.testCaseId)
      && c.planId != 0 && c.buildId != 0
  }

  /** Every request sent between `s0` and `s` that reports a result is sound in `s`. */
  ghost predicate ReportsSound(s0: Server, s: Server)
    requires s0.log <= s.log
  {
    forall i :: |s0.log| <= i < |s.log| ==> SoundReport(s, s.log[i])
  }

  lemma ReportsSoundTransitive(s1: Server, s2: Server, s3: Server)
    requires Grows(s1, s2) && Grows(s2, s3)
    requires ReportsSound(s1, s2) && ReportsSound(s2, s3)
    ensures Grows(s1, s3) && ReportsSound(s1, s3)
  {
    forall i | |s1.log| <= i < |s3.log|
      ensures SoundReport(s3, s3.log[i])
    {
      if i < |s2.log| {
        assert s3.log[i] == s2.log[i];
        assert SoundReport(s2, s2.log[i]);
        if s2.log[i].Report? {
          var k :| 0 <= k < |s2.cases| && s2.cases[k].id == s2.log[i].testCaseId;
          assert s3.cases[k] == s2.cases[k];
        }
      }
    }
  }

  /** Requests that report nothing are trivially sound. */
  lemma ExtendsIsSound(s1: Server, s2: Server)
    requires Extends(s1, s2)
    ensures Grows(s1, s2) && ReportsSound(s1, s2)
  {
    forall i | |s1.log| <= i < |s2.log| ensures SoundReport(s2, s2.log[i]) {
      assert !s2.log[i].Report?;
    }
  }

  /** Between `s1` and `s2` no result report was sent, except possibly as the last request. */
  ghost predicate ReportOnlyLast(s1: Server, s2: Server)
    requires s1.log <= s2.log
  {
    forall i :: |s1.log| <= i < |s2.log| - 1 ==> !s2.log[i].Report?
  }

  /** The last request between `s1` and `s2` reported a result. */
  ghost predicate SentLast(s1: Server, s2: Server) {
    |s2.log| > |s1.log| && s2.log[|s2.log| - 1].Report?
  }

  /** Requests that report nothing, followed by requests that report at most last. */
  lemma ReportOnlyLastAfter(s: Server, s1: Server, s2: Server)
    requires Extends(s, s1) && s1.log <= s2.log && ReportOnlyLast(s1, s2)
    ensures ReportOnlyLast(s, s2)
    ensures SentLast(s, s2) ==> SentLast(s1, s2)
  {
    forall i | |s.log| <= i < |s2.log| - 1 ensures !s2.log[i].Report? {
      if i < |s1.log| {
        assert s2.log[i] == s1.log[i];
      }
    }
  }

  /** `reportResult`: the fixture's connection data and selection are handed to the
      adaptor, then, if the connection is valid, the test case is looked up or created by its
      reported name and, when that gives a positive id, its result is sent. A null
      dereference in the lookup is caught and only logged. At most one result report is
      sent, always last, and only when the fixture's selection has been accepted; it names
      the case found or created under the reported name in the selected suite. */
  function ReportResult(e: Exporter, s: Server, t: TestResult, f: Fixture): (r: Run)
    ensures r.exporter == e.(adaptor := r.exporter.adaptor)
    ensures r.exporter.adaptor.connectionData == Some(ConnectionOf(f))
    ensures Grows(s, r.server) && ReportOnlyLast(s, r.server)
    ensures SentLast(s, r.server) ==>
      && ConnectionValid(r.exporter.adaptor)
      && r.exporter.adaptor.projectData == Some(SelectionOf(f))
      && SentFor(r.exporter, t, r.server, r.server.log[|r.server.log| - 1])
    ensures var sel := Configure(e.adaptor, s, f);
      && (!ConnectionValid(sel.adaptor) ==> r.server == sel.server)
      && (ConnectionValid(sel.adaptor) && sel.adaptor.proxy.Some? && Wellformed(s)
            && HasCase(sel.server, TestCaseName(t), sel.adaptor.testSuiteId) ==>
            SentLast(s, r.server))
  {
    var sel := Configure(e.adaptor, s, f);
    var e1 := e.(adaptor := sel.adaptor);
    if !ConnectionValid(sel.adaptor) then Run(e1, sel.server)
    else
      var sent := LookupAndSend(e1, sel.server, t);
      ReportOnlyLastAfter(s, sel.server, sent.server);
      sent
  }

  /** The first statement of `reportResult`: the fixture's connection data, then its
      selection, handed to the adaptor. */
  function Configure(a: Adaptor, s: Server, f: Fixture): (r: Step<bool>)
    ensures r.adaptor.connectionData == Some(ConnectionOf(f))
    ensures ConnectionValid(r.adaptor) ==> r.adaptor.projectData == Some(SelectionOf(f))
    ensures Extends(s, r.server)
    ensures Wellformed(s) ==> Wellformed(r.server)
    ensures Wellformed(s) && Inv(a) && Resolved(a) ==>
      Wellformed(r.server) && Inv(r.adaptor) && Resolved(r.adaptor)
  {
    var conn := UpdateConnectionData(a, s, Some(ConnectionOf(f)));
    var sel := UpdateProjectData(conn.adaptor, conn.server, SelectionOf(f));
    ExtendsTransitive(s, conn.server, sel.server);
    sel
  }

  /** `reportResult` keeps the server well-formed and the adaptor's invariants, and any
      result report it sends is sound. */
  lemma ReportResultIsSound(e: Exporter, s: Server, t: TestResult, f: Fixture)
    requires Wellformed(s) && Inv(e.adaptor) && Resolved(e.adaptor)
    ensures var r := ReportResult(e, s, t, f);
      && Wellformed(r.server) && ReportsSound(s, r.server)
      && Inv(r.exporter.adaptor) && Resolved(r.exporter.adaptor)
  {
    var sel := Configure(e.adaptor, s, f);
    ExtendsIsSound(s, sel.server);
    if ConnectionValid(sel.adaptor) {
      var e1 := e.(adaptor := sel.adaptor);
      LookupAndSendIsSound(e1, sel.server, t);
      SentIsSound(s, sel.server, LookupAndSend(e1, sel.server, t).server);
    }
  }

  /** The part of `reportResult` behind the validity guard: the lookup or creation of the
      test case, then the report exactly when that gives a positive id; so a case that
      already exists in the selected suite always gets its result. */
  function LookupAndSend(e: Exporter, s: Server, t: TestResult): (r: Run)
    requires ConnectionValid(e.adaptor) && e.adaptor.projectData.Some?
    ensures r.exporter == e
    ensures Grows(s, r.server) && ReportOnlyLast(s, r.server)
    ensures SentLast(s, r.server) ==> SentFor(e, t, r.server, r.server.log[|r.server.log| - 1])
    ensures Wellformed(s) ==> Wellformed(r.server)
    ensures var lookup := GetTestCaseId(e.adaptor, s, TestCaseName(t), t.description.GetOr(""));
      SentLast(s, r.server) <==> lookup.value.CaseId? && lookup.value.id > 0
    ensures e.adaptor.proxy.Some? && Wellformed(s) && HasCase(s, TestCaseName(t), e.adaptor.testSuiteId) ==>
      SentLast(s, r.server)
  {
    var lookup := GetTestCaseId(e.adaptor, s, TestCaseName(t), t.description.GetOr(""));
    var sent := SendFound(e, lookup.server, t, lookup.value);
    ExtendsIsSound(s, lookup.server);
    assert ReportOnlyLast(s, sent.server) by {
      ReportOnlyLastAfter(s, lookup.server, sent.server);
    }
    assert e.adaptor.proxy.Some? && Wellformed(s) && HasCase(s, TestCaseName(t), e.adaptor.testSuiteId) ==>
      lookup.value.CaseId? && lookup.value.id > 0
    by {
      if e.adaptor.proxy.Some? && Wellformed(s) && HasCase(s, TestCaseName(t), e.adaptor.testSuiteId) {
        var c :| c in lookup.server.cases && c.id == lookup.value.id;
      }
    }
    sent
  }

  /** The report step of `reportResult`: a positive id gets the result, anything else
      (0, or the null dereference caught by the source) sends nothing. */
  function SendFound(e: Exporter, s: Server, t: TestResult, lookup: CaseLookup): (r: Run)
    requires ConnectionValid(e.adaptor) && e.adaptor.projectData.Some?
    ensures r.exporter == e
    ensures Grows(s, r.server) && ReportOnlyLast(s, r.server)
    ensures SentLast(s, r.server) <==> lookup.CaseId? && lookup.id > 0
    ensures SentLast(s, r.server) ==>
      r.server.log[|r.server.log| - 1]
        == Report(lookup.id, e.adaptor.testPlanId, StatusFor(t.state),
                  e.adaptor.projectData.value.platform,
                  Notes(t.message, e.currentTestOutput, t.state), e.adaptor.testBuildId)
      && r.server.cases == s.cases
    ensures !SentLast(s, r.server) ==> r.server == s
  {
    match lookup
    case NullReference => Run(e, s)
    case CaseId(id) =>
      if id > 0 then
        var sent := SendResult(e, s, t, id);
        assert sent.server.log[..|s.log|] == s.log;
        sent
      else Run(e, s)
  }

  /** `c` is the report of `t`'s result by an adaptor in state `e.adaptor`: the resolved plan
      and build, the selected platform, the status and notes for the result, and a positive
      id of a test case of the server with the reported name in the selected suite. */
  ghost predicate SentFor(e: Exporter, t: TestResult, s: Server, c: Call)
    requires e.adaptor.projectData.Some?
  {
    var a := e.adaptor;
    && c.Report?
    && c == Report(c.testCaseId, a.testPlanId, StatusFor(t.state), a.projectData.value.platform,
                   Notes(t.message, e.currentTestOutput, t.state), a.testBuildId)
    && c.testCaseId > 0
    && exists k :: 0 <= k < |s.cases| && s.cases[k].id == c.testCaseId
                && s.cases[k].name == TestCaseName(t) && s.cases[k].suiteId == a.testSuiteId
  }

  /** The one report the lookup and report may send is sound when the adaptor's selection
      is resolved. */
  lemma LookupAndSendIsSound(e: Exporter, s: Server, t: TestResult)
    requires ConnectionValid(e.adaptor) && e.adaptor.projectData.Some? && Resolved(e.adaptor)
    ensures var r := LookupAndSend(e, s, t); ReportsSound(s, r.server)
  {
    var r := LookupAndSend(e, s, t);
    forall i | |s.log| <= i < |r.server.log|
      ensures SoundReport(r.server, r.server.log[i])
    {
      if i == |r.server.log| - 1 && r.server.log[i].Report? {
        assert SentLast(s, r.server);
      }
    }
  }

  /** The report step keeps the soundness of everything before it. */
  lemma SentIsSound(s: Server, s1: Server, s2: Server)
    requires Grows(s, s1) && ReportsSound(s, s1) && Grows(s1, s2)
    ensures Grows(s, s2)
    ensures ReportsSound(s1, s2) ==> ReportsSound(s, s2)
  {
    if ReportsSound(s1, s2) {
      ReportsSoundTransitive(s, s1, s2);
    }
  }

  lemma GrowsTransitive(s1: Server, s2: Server, s3: Server)
    requires Grows(s1, s2) && Grows(s2, s3)
    ensures Grows(s1, s3)
  {
  }

  // ---------------------------------------------------------------- the result tree

  /** The fixture a leaf is reported with: its `TestSuite`, when null, becomes the fixture's
      class name, and that change is kept in the table. */
  function WithSuite(f: Fixture, fixtureName: string): (g: Fixture)
    ensures g.testSuite == Some(f.testSuite.GetOr(fixtureName))
    ensures g.(testSuite := f.testSuite) == f
  {
    if f.testSuite.None? then f.(testSuite := Some(fixtureName)) else f
  }

  /** The leaf case of `processResults`: the leaf's fixture is the class part of its full
      name; a leaf whose fixture is unknown is passed over, and one whose fixture is
      disabled only gets its fixture's suite filled in. */
  function ProcessLeaf(e: Exporter, s: Server, t: TestResult): (r: Run)
    ensures var name := ExtractTestFixture(t.fullName);
      && (name !in e.fixtures ==> r == Run(e, s))
      && (name in e.fixtures ==>
            && r.exporter.fixtures == e.fixtures[name := WithSuite(e.fixtures[name], name)]
            && (e.fixtures[name].exportEnabled ==>
                  var f := WithSuite(e.fixtures[name], name);
                  var sel := Configure(e.adaptor, s, f);
                  && r == ReportResult(e.(fixtures := e.fixtures[name := f]), s, t, f)
                  && r.exporter.adaptor.connectionData == Some(ConnectionOf(f))
                  && (ConnectionValid(sel.adaptor) && sel.adaptor.proxy.Some? && Wellformed(s)
                        && HasCase(sel.server, TestCaseName(t), sel.adaptor.testSuiteId) ==>
                        SentLast(s, r.server)))
            && (!e.fixtures[name].exportEnabled ==> r.server == s && r.exporter.adaptor == e.adaptor))
      && (|r.server.log| > |s.log| && r.server.log[|r.server.log| - 1].Report? ==>
            && name in e.fixtures && e.fixtures[name].exportEnabled
            && r.exporter.adaptor.projectData == Some(SelectionOf(r.exporter.fixtures[name])))
    ensures r.exporter.currentTestOutput == e.currentTestOutput
    ensures Grows(s, r.server)
    ensures forall i :: |s.log| <= i < |r.server.log| - 1 ==> !r.server.log[i].Report?
  {
    var name := ExtractTestFixture(t.fullName);
    if name !in e.fixtures then Run(e, s)
    else
      var f := WithSuite(e.fixtures[name], name);
      var e1 := e.(fixtures := e.fixtures[name := f]);
      if f.exportEnabled then ReportResult(e1, s, t, f) else Run(e1, s)
  }

  /** What `processResults` does at one node before it descends: a node named like a DLL
      has its fixtures loaded (a class already known is replaced), and a leaf is processed. */
  function Visit(e: Exporter, s: Server, load: string -> map<string, Fixture>, t: TestResult)
    : (r: Run)
    ensures Grows(s, r.server)
    ensures r.exporter.currentTestOutput == e.currentTestOutput
    ensures |t.results| > 0 ==> r.server == s && r.exporter.adaptor == e.adaptor
    ensures IsDllPath(t.name) ==> load(t.name).Keys <= r.exporter.fixtures.Keys
    ensures e.fixtures.Keys <= r.exporter.fixtures.Keys
  {
    var e1 := if IsDllPath(t.name) then e.(fixtures := e.fixtures + load(t.name)) else e;
    if |t.results| == 0 then ProcessLeaf(e1, s, t) else Run(e1, s)
  }

  /** `processResults` (called by `RunFinished`): the node itself, then its sub-results in
      order. */
  function ProcessResults(e: Exporter, s: Server, load: string -> map<string, Fixture>,
                          t: TestResult): (r: Run)
    ensures Grows(s, r.server)
    ensures r.exporter.currentTestOutput == e.currentTestOutput
    ensures e.fixtures.Keys <= r.exporter.fixtures.Keys
    decreases t, 1
  {
    var v := Visit(e, s, load, t);
    ProcessChildren(v.exporter, v.server, load, t, 0)
  }

  function ProcessChildren(e: Exporter, s: Server, load: string -> map<string, Fixture>,
                           t: TestResult, i: nat): (r: Run)
    requires i <= |t.results|
    ensures Grows(s, r.server)
    ensures r.exporter.currentTestOutput == e.currentTestOutput
    ensures e.fixtures.Keys <= r.exporter.fixtures.Keys
    decreases t, 0, |t.results| - i
  {
    if i == |t.results| then Run(e, s)
    else
      var r := ProcessResults(e, s, load, t.results[i]);
      var rest := ProcessChildren(r.exporter, r.server, load, t, i + 1);
      GrowsTransitive(s, r.server, rest.server);
      rest
  }

  /** The nodes of a result tree in pre-order: a node, then each sub-tree in turn. */
  function PreOrder(t: TestResult): (r: seq<TestResult>)
    ensures |r| >= 1 && r[0] == t
    decreases t, 1
  {
    [t] + PreOrderFrom(t, 0)
  }

  function PreOrderFrom(t: TestResult, i: nat): seq<TestResult>
    requires i <= |t.results|
    decreases t, 0, |t.results| - i
  {
    if i == |t.results| then [] else PreOrder(t.results[i]) + PreOrderFrom(t, i + 1)
  }

  /** The nodes visited one after the other, with state carried along. */
  function VisitAll(e: Exporter, s: Server, load: string -> map<string, Fixture>,
                    ts: seq<TestResult>): Run
    decreases |ts|
  {
    if |ts| == 0 then Run(e, s)
    else
      var v := Visit(e, s, load, ts[0]);
      VisitAll(v.exporter, v.server, load, ts[1..])
  }

  lemma {:induction false} VisitAllAppend(e: Exporter, s: Server,
                                          load: string -> map<string, Fixture>,
                                          xs: seq<TestResult>, ys: seq<TestResult>)
    ensures VisitAll(e, s, load, xs + ys)
         == var r := VisitAll(e, s, load, xs); VisitAll(r.exporter, r.server, load, ys)
    decreases |xs|
  {
    if |xs| > 0 {
      var v := Visit(e, s, load, xs[0]);
      assert (xs + ys)[0] == xs[0];
      assert (xs + ys)[1..] == xs[1..] + ys;
      VisitAllAppend(v.exporter, v.server, load, xs[1..], ys);
    } else {
      assert xs + ys == ys;
    }
  }

  /** The recursive walk is a flat walk over the tree's nodes in pre-order: every node is
      visited exactly once, a suite before its sub-results, sub-results in their order. */
  lemma {:induction false} ProcessIsPreOrder(e: Exporter, s: Server,
                                             load: string -> map<string, Fixture>, t: TestResult)
    ensures ProcessResults(e, s, load, t) == VisitAll(e, s, load, PreOrder(t))
    decreases t, 1
  {
    var v := Visit(e, s, load, t);
    var order := PreOrder(t);
    assert order[1..] == PreOrderFrom(t, 0);
    ChildrenArePreOrder(v.exporter, v.server, load, t, 0);
  }

  lemma {:induction false} ChildrenArePreOrder(e: Exporter, s: Server,
                                               load: string -> map<string, Fixture>,
                                               t: TestResult, i: nat)
    requires i <= |t.results|
    ensures ProcessChildren(e, s, load, t, i) == VisitAll(e, s, load, PreOrderFrom(t, i))
    decreases t, 0, |t.results| - i
  {
    if i < |t.results| {
      var r := ProcessResults(e, s, load, t.results[i]);
      ProcessIsPreOrder(e, s, load, t.results[i]);
      VisitAllAppend(e, s, load, PreOrder(t.results[i]), PreOrderFrom(t, i + 1));
      ChildrenArePreOrder(r.exporter, r.server, load, t, i + 1);
    }
  }

  /** One node keeps the server well-formed and the adaptor's invariants, and any report it
      sends is sound. */
  lemma VisitIsSound(e: Exporter, s: Server, load: string -> map<string, Fixture>,
                     t: TestResult)
    requires Wellformed(s) && Inv(e.adaptor) && Resolved(e.adaptor)
    ensures var r := Visit(e, s, load, t);
      && Wellformed(r.server) && ReportsSound(s, r.server)
      && Inv(r.exporter.adaptor) && Resolved(r.exporter.adaptor)
  {
    var e1 := if IsDllPath(t.name) then e.(fixtures := e.fixtures + load(t.name)) else e;
    var name := ExtractTestFixture(t.fullName);
    if |t.results| == 0 && name in e1.fixtures {
      var f := WithSuite(e1.fixtures[name], name);
      if f.exportEnabled {
        ReportResultIsSound(e1.(fixtures := e1.fixtures[name := f]), s, t, f);
      }
    }
  }

  lemma {:induction false} VisitAllIsSound(e: Exporter, s: Server,
                                           load: string -> map<string, Fixture>,
                                           ts: seq<TestResult>)
    requires Wellformed(s) && Inv(e.adaptor) && Resolved(e.adaptor)
    ensures var r := VisitAll(e, s, load, ts);
      && Grows(s, r.server) && Wellformed(r.server) && ReportsSound(s, r.server)
      && Inv(r.exporter.adaptor) && Resolved(r.exporter.adaptor)
    decreases |ts|
  {
    if |ts| > 0 {
      var v := Visit(e, s, load, ts[0]);
      VisitIsSound(e, s, load, ts[0]);
      VisitAllIsSound(v.exporter, v.server, load, ts[1..]);
      ReportsSoundTransitive(s, v.server, VisitAll(v.exporter, v.server, load, ts[1..]).server);
    }
  }

  /** A whole run on a well-formed server, from a fresh listener or any listener whose
      adaptor keeps its invariants: the server only grows, and every result it receives names
      an existing test case and a resolved plan and build. */
  lemma ProcessResultsIsSound(e: Exporter, s: Server, load: string -> map<string, Fixture>,
                              t: TestResult)
    requires Wellformed(s) && Inv(e.adaptor) && Resolved(e.adaptor)
    ensures var r := ProcessResults(e, s, load, t);
      && Grows(s, r.server) && Wellformed(r.server) && ReportsSound(s, r.server)
      && Inv(r.exporter.adaptor) && Resolved(r.exporter.adaptor)
  {
    ProcessIsPreOrder(e, s, load, t);
    VisitAllIsSound(e, s, load, PreOrder(t));
  }
}

=== FILE: records.dfy ===
/** The two immutable value records the adaptor compares to decide what to re-resolve:
    `TestLinkConnectionData` (where the server is, who talks to it) and
    `TestLinkProjectData` (which project, plan, suite, platform and build to report into).
    Their setters are private, so a value never changes after construction; a Dafny
    datatype value is immutable in the same way. */
module Records {
  import opened Wrappers

  /** `TestLinkConnectionData`. */
  datatype ConnectionData = ConnectionData(url: string, devKey: string, user: string)

  /** The three-argument constructor; its parameters come in the order url, devkey, user. */
  function NewConnectionData(url: string, devkey: string, user: string): (c: ConnectionData)
    ensures c.url == url && c.devKey == devkey && c.user == user
  {
    ConnectionData(url, devkey, user)
  }

  /** The parameterless constructor. */
  function DefaultConnectionData(): (c: ConnectionData)
    ensures c.url == "" && c.devKey == "" && c.user == ""
  {
    ConnectionData("", "", "")
  }

  /** `Equals`: the developer key, the URL and the user all agree. */
  predicate ConnectionEquals(self: ConnectionData, other: ConnectionData)
    ensures ConnectionEquals(self, other) <==> self == other
  {
    other.devKey == self.devKey && other.url == self.url && other.user == self.user
  }

  /** Field-wise comparison is exactly value identity, so it is reflexive, symmetric and
      transitive, and the constructor followed by the getters gives back every value. */
  lemma ConnectionEqualsIsIdentity(a: ConnectionData, b: ConnectionData)
    ensures ConnectionEquals(a, b) <==> a == b
    ensures ConnectionEquals(a, a)
    ensures ConnectionEquals(a, b) <==> ConnectionEquals(b, a)
    ensures NewConnectionData(a.url, a.devKey, a.user) == a
  {
  }

  /** `TestLinkProjectData`, with the `testsuite` member the adaptor reads
      (TestLinkAdaptor.cs reads `projectData.Testsuite`). `build` may be null in the source
      and the adaptor tests for that, so it is optional here. */
  datatype ProjectData = ProjectData(
    build: Option<string>,
    project: string,
    testplan: string,
    testsuite: string,
    platform: string)

  /** The five-argument constructor with every argument stored, `testsuite` included. */
  function NewProjectData(build: Option<string>, project: string, testplan: string,
                          testsuite: string, platform: string): (d: ProjectData)
    ensures d.build == build && d.project == project && d.testplan == testplan
    ensures d.testsuite == testsuite && d.platform == platform
  {
    ProjectData(build, project, testplan, testsuite, platform)
  }

  /** The parameterless constructor: every name empty. The source has no suite member to
      initialise; the model gives it the same empty default as the other names. */
  function DefaultProjectData(): (d: ProjectData)
    ensures d.build == Some("") && d.project == "" && d.testplan == ""
    ensures d.testsuite == "" && d.platform == ""
  {
    ProjectData(Some(""), "", "", "", "")
  }

  /** `TestLinkProjectData` exactly as the class is declared: four members, no suite. */
  datatype ProjectDataAsWritten = ProjectDataAsWritten(
    build: Option<string>,
    project: string,
    testplan: string,
    platform: string)

  /** The five-argument constructor as written: `testsuite` is accepted and then dropped. */
  function NewProjectDataAsWritten(build: Option<string>, project: string, testplan: string,
                                   testsuite: string, platform: string): (d: ProjectDataAsWritten)
    ensures d.build == build && d.project == project && d.testplan == testplan
    ensures d.platform == platform
  {
    ProjectDataAsWritten(build, project, testplan, platform)
  }

  /** What the declared class keeps of a full selection. */
  function Forget(d: ProjectData): ProjectDataAsWritten {
    ProjectDataAsWritten(d.build, d.project, d.testplan, d.platform)
  }

  /** The declared constructor keeps everything but the suite: two selections that differ
      only in their suite construct the same value, so the suite cannot be read back. */
  lemma AsWrittenLosesTestsuite(build: Option<string>, project: string, testplan: string,
                                platform: string, suite1: string, suite2: string)
    ensures NewProjectDataAsWritten(build, project, testplan, suite1, platform)
         == NewProjectDataAsWritten(build, project, testplan, suite2, platform)
         == Forget(NewProjectData(build, project, testplan, suite1, platform))
    ensures suite1 != suite2 ==>
      NewProjectData(build, project, testplan, suite1, platform)
      != NewProjectData(build, project, testplan, suite2, platform)
  {
  }
}

=== FILE: remote.dfy ===
/** A deterministic stand-in for the TestLink server behind the XML-RPC proxy
    (`Meyn.TestLink.TestLink`, which is not part of this model). The server is an immutable
    value; every proxy operation is a function from the server before the call to the reply
    and the server after it. Each call appends one entry to `log`, so "the adaptor made no
    remote call" is "the server value did not change". */
module Remote {
  import opened Wrappers
  import opened Seqs

  /** The developer key and URL a proxy was built with. */
  datatype Endpoint = Endpoint(devKey: string, url: string)

  datatype Project = Project(id: int, name: string, prefix: string)
  datatype TestPlan = TestPlan(id: int, name: string, projectId: int)
  datatype Platform = Platform(id: int, name: string)
  datatype Build = Build(id: int, name: string, active: bool, isOpen: bool)

  /** A test suite; `parentId` is 0 for a first-level suite of its project. */
  datatype Suite = Suite(id: int, name: string, projectId: int, parentId: int)

  datatype TestCase = TestCase(id: int, name: string, suiteId: int, projectId: int,
                               externalId: int, version: int)

  /** `TestCaseId`: one hit of a search by name. */
  datatype TestCaseRef = TestCaseRef(id: int, parentId: int)

  /** A test case version linked into a test plan for a platform. */
  datatype Feature = Feature(id: int, projectId: int, planId: int, externalRef: string,
                             version: int, platformId: int)

  /** `TestCaseResultStatus`. */
  datatype ResultStatus = Pass | Fail | Blocked

  datatype Execution = Execution(testCaseId: int, planId: int, status: ResultStatus,
                                 platformName: string, notes: string, buildId: int)

  /** The `additionalInfo` part of a reply to a test case creation. */
  datatype AdditionalInfo = AdditionalInfo(id: int, externalId: int, version: int)

  /** `GeneralResult`: a business-level status flag, a message, and what was created. */
  datatype GeneralResult = GeneralResult(message: string, status: bool, id: int,
                                         additionalInfo: Option<AdditionalInfo>)

  /** One request sent through the proxy. */
  datatype Call =
    | ListProjects(endpoint: Endpoint)
    | ListPlans(projectId: int)
    | ListPlatforms(planId: int)
    | ListBuilds(planId: int)
    | ListFirstLevelSuites(projectId: int)
    | ListChildSuites(suiteId: int)
    | NewSuite(projectId: int, name: string, details: string, parentId: int)
    | FindCases(name: string)
    | NewCase(user: string, suiteId: int, name: string, projectId: int, summary: string)
    | LinkCase(projectId: int, planId: int, externalRef: string, version: int, platformId: int)
    | Report(testCaseId: int, planId: int, status: ResultStatus, platformName: string,
             notes: string, buildId: int)

  /** The server's contents. `refusedNames` are names it rejects on creation (a stand-in for
      whatever business rule makes a creation fail); `rejectionInfo` is what a rejected test
      case creation carries as `additionalInfo` (`None` is a null reference). */
  datatype Server = Server(
    url: string,
    devKeys: set<string>,
    projects: seq<Project>,
    plans: seq<TestPlan>,
    platforms: map<int, seq<Platform>>,
    builds: map<int, seq<Build>>,
    suites: seq<Suite>,
    cases: seq<TestCase>,
    features: seq<Feature>,
    executions: seq<Execution>,
    refusedNames: set<string>,
    rejectionInfo: Option<AdditionalInfo>,
    nextId: int,
    log: seq<Call>)

  datatype Reply<T> = Reply(value: T, server: Server)

  /** Suites carry positive, strictly increasing ids below `nextId`, and a parent id smaller
      than their own (a parent is created before its children). */
  ghost predicate SuitesWellformed(suites: seq<Suite>, nextId: int) {
    && (forall i :: 0 <= i < |suites| ==> 0 < suites[i].id < nextId)
    && (forall i :: 0 <= i < |suites| ==> suites[i].parentId < suites[i].id)
    && (forall i, j :: 0 <= i < j < |suites| ==> suites[i].id < suites[j].id)
  }

  /** What a real server guarantees about ids: they are positive, and fresh ones come
      from `nextId`. */
  ghost predicate Wellformed(s: Server) {
    && s.nextId > 0
    && SuitesWellformed(s.suites, s.nextId)
    && (forall i :: 0 <= i < |s.cases| ==> 0 < s.cases[i].id < s.nextId)
    && (forall plan, b :: plan in s.builds && b in s.builds[plan] ==> b.id > 0)
  }

  /** `s2` is `s1` after some requests that created suites, test cases or plan links but
      reported no result: nothing was removed or rewritten, and no `Report` was sent. */
  ghost predicate Extends(s1: Server, s2: Server) {
    && s2 == s1.(suites := s2.suites, cases := s2.cases, features := s2.features,
                 nextId := s2.nextId, log := s2.log)
    && s1.suites <= s2.suites && s1.cases <= s2.cases && s1.features <= s2.features
    && s1.nextId <= s2.nextId
    && s1.log <= s2.log
    && (forall i :: |s1.log| <= i < |s2.log| ==> !s2.log[i].Report?)
  }

  lemma ExtendsTransitive(s1: Server, s2: Server, s3: Server)
    requires Extends(s1, s2) && Extends(s2, s3)
    ensures Extends(s1, s3)
  {
    assert forall i :: |s1.log| <= i < |s2.log| ==> s3.log[i] == s2.log[i];
  }

  function Logged(s: Server, c: Call): Server {
    s.(log := s.log + [c])
  }

  /** `GetProjects`, the probe a new proxy makes: it throws unless the URL names this server
      and the developer key is one it knows. */
  function GetProjects(s: Server, e: Endpoint): Reply<Result<seq<Project>, string>> {
    var s1 := Logged(s, ListProjects(e));
    if e.url == s.url && e.devKey in s.devKeys then Reply(Success(s.projects), s1)
    else Reply(Failure("cannot connect to TestLink"), s1)
  }

  function GetProjectTestPlans(s: Server, projectId: int): Reply<seq<TestPlan>> {
    Reply(PlansOf(s, projectId), Logged(s, ListPlans(projectId)))
  }

  /** The plans of a project, in storage order. */
  function PlansOf(s: Server, projectId: int): (r: seq<TestPlan>)
    ensures forall i :: 0 <= i < |r| ==> r[i] in s.plans && r[i].projectId == projectId
  {
    Filter(s.plans, (p: TestPlan) => p.projectId == projectId)
  }

  function GetTestPlanPlatforms(s: Server, planId: int): Reply<seq<Platform>> {
    Reply(PlatformsOf(s, planId), Logged(s, ListPlatforms(planId)))
  }

  function PlatformsOf(s: Server, planId: int): seq<Platform> {
    if planId in s.platforms then s.platforms[planId] else []
  }

  function GetBuildsForTestPlan(s: Server, planId: int): Reply<seq<Build>> {
    Reply(BuildsOf(s, planId), Logged(s, ListBuilds(planId)))
  }

  function BuildsOf(s: Server, planId: int): seq<Build> {
    if planId in s.builds then s.builds[planId] else []
  }

  function GetFirstLevelTestSuitesForTestProject(s: Server, projectId: int): Reply<seq<Suite>> {
    Reply(Filter(s.suites, (t: Suite) => t.projectId == projectId && t.parentId == 0),
          Logged(s, ListFirstLevelSuites(projectId)))
  }

  function GetTestSuitesForTestSuite(s: Server, suiteId: int): Reply<seq<Suite>> {
    Reply(Filter(s.suites, (t: Suite) => t.parentId == suiteId),
          Logged(s, ListChildSuites(suiteId)))
  }

  /** `CreateTestSuite(projectId, name, details, parentId)`; a parent of 0 makes a
      first-level suite. A success carries the new suite's id. */
  function CreateTestSuite(s: Server, projectId: int, name: string, details: string,
                           parentId: int): Reply<GeneralResult>
  {
    var s1 := Logged(s, NewSuite(projectId, name, details, parentId));
    if name in s.refusedNames then
      Reply(GeneralResult("test suite name refused", false, 0, None), s1)
    else
      Reply(GeneralResult("", true, s.nextId, None),
            s1.(suites := s.suites + [Suite(s.nextId, name, projectId, parentId)],
                nextId := s.nextId + 1))
  }

  /** `GetTestCaseIDByName`: every test case with that name, in storage order. */
  function GetTestCaseIDByName(s: Server, name: string): Reply<seq<TestCaseRef>> {
    Reply(CaseRefsNamed(s.cases, name), Logged(s, FindCases(name)))
  }

  function CaseRefsNamed(cases: seq<TestCase>, name: string): (r: seq<TestCaseRef>)
    ensures forall i :: 0 <= i < |r| ==>
      exists c :: c in cases && c.name == name && r[i] == TestCaseRef(c.id, c.suiteId)
    ensures forall c :: c in cases && c.name == name ==> TestCaseRef(c.id, c.suiteId) in r
  {
    var named := Filter(cases, (c: TestCase) => c.name == name);
    var r := seq(|named|, i requires 0 <= i < |named| => TestCaseRef(named[i].id, named[i].suiteId));
    assert forall i :: 0 <= i < |r| ==> named[i] in cases && named[i].name == name;
    assert forall c :: c in cases && c.name == name ==> TestCaseRef(c.id, c.suiteId) in r by {
      forall c | c in cases && c.name == name
        ensures TestCaseRef(c.id, c.suiteId) in r
      {
        var j :| 0 <= j < |cases| && cases[j] == c;
        assert c in named;
        var i :| 0 <= i < |named| && named[i] == c;
        assert r[i] == TestCaseRef(c.id, c.suiteId);
      }
    }
    r
  }

  /** There is a test case of that name in that suite (the `ActionOnDuplicatedName.Block`
      policy refuses to create a second one). */
  predicate HasCase(s: Server, name: string, suiteId: int) {
    exists c :: c in s.cases && c.name == name && c.suiteId == suiteId
  }

  /** `CreateTestCase(user, suiteId, name, projectId, summary, …)`; the remaining arguments
      the adaptor always passes as constants. */
  function CreateTestCase(s: Server, user: string, suiteId: int, name: string, projectId: int,
                          summary: string): Reply<GeneralResult>
  {
    var s1 := Logged(s, NewCase(user, suiteId, name, projectId, summary));
    if name in s.refusedNames || HasCase(s, name, suiteId) then
      Reply(GeneralResult("test case refused", false, 0, s.rejectionInfo), s1)
    else
      var c := TestCase(s.nextId, name, suiteId, projectId, s.nextId, 1);
      Reply(GeneralResult("", true, c.id, Some(AdditionalInfo(c.id, c.externalId, c.version))),
            s1.(cases := s.cases + [c], nextId := s.nextId + 1))
  }

  /** `addTestCaseToTestPlan`: the new feature id, or 0 when the plan is not one of the
      project's. */
  function AddTestCaseToTestPlan(s: Server, projectId: int, planId: int, externalRef: string,
                                 version: int, platformId: int): Reply<int>
  {
    var s1 := Logged(s, LinkCase(projectId, planId, externalRef, version, platformId));
    if exists p :: p in s.plans && p.id == planId && p.projectId == projectId then
      Reply(s.nextId,
            s1.(features := s.features + [Feature(s.nextId, projectId, planId, externalRef,
                                                  version, platformId)],
                nextId := s.nextId + 1))
    else Reply(0, s1)
  }

  /** `ReportTCResult`: the execution is recorded when the test case exists. */
  function ReportTCResult(s: Server, testCaseId: int, planId: int, status: ResultStatus,
                          platformName: string, notes: string, buildId: int): Reply<GeneralResult>
  {
    var s1 := Logged(s, Report(testCaseId, planId, status, platformName, notes, buildId));
    if exists c :: c in s.cases && c.id == testCaseId then
      Reply(GeneralResult("", true, 0, None),
            s1.(executions := s.executions
                  + [Execution(testCaseId, planId, status, platformName, notes, buildId)]))
    else Reply(GeneralResult("test case unknown", false, 0, None), s1)
  }
}

=== FILE: seqs.dfy ===
/** Sequence searches shared by every lookup of the adaptor: the source's
    `foreach (…) if (…) { …; break; }` loops all take the FIRST matching element. */
module Seqs {
  import opened Wrappers

  /** `i` is the position of the first element of `xs` that satisfies `p`. */
  ghost predicate IsFirst<T>(xs: seq<T>, i: int, p: T -> bool) {
    0 <= i < |xs| && p(xs[i]) && forall j :: 0 <= j < i ==> !p(xs[j])
  }

  /** The index of the first element satisfying `p`, or `None` when no element does. */
  function FirstIndex<T>(xs: seq<T>, p: T -> bool): (r: Option<nat>)
    ensures r.Some? ==> IsFirst(xs, r.value, p)
    ensures r.None? <==> forall j :: 0 <= j < |xs| ==> !p(xs[j])
    ensures forall i :: IsFirst(xs, i, p) ==> r == Some(i)
    decreases |xs|
  {
    if |xs| == 0 then None
    else if p(xs[0]) then Some(0)
    else
      match FirstIndex(xs[1..], p)
      case None => None
      case Some(k) => Some(k + 1)
  }

  /** The elements of `xs` that satisfy `p`, in their original order. */
  function Filter<T>(xs: seq<T>, p: T -> bool): (r: seq<T>)
    ensures |r| <= |xs|
    ensures forall i :: 0 <= i < |r| ==> r[i] in xs && p(r[i])
    ensures forall i :: 0 <= i < |xs| && p(xs[i]) ==> xs[i] in r
    decreases |xs|
  {
    if |xs| == 0 then []
    else if p(xs[0]) then [xs[0]] + Filter(xs[1..], p)
    else Filter(xs[1..], p)
  }
}

=== FILE: test_suites.dfy ===
/** `TestLinkAdaptor.GetTestSuiteId`: resolving a dotted test suite path such as
    "Root.Child.Leaf" one level at a time, creating missing levels when asked to. */
module TestSuites {
  import opened Wrappers
  import opened Seqs
  import opened Text
  import opened Remote

  /** The id of the suite at the end of `testSuiteName`, or 0. The path is split on '.'; the
      first segment is looked up among the project's first-level suites and each later one
      among the children of the previous segment's suite. With `createIfNotExisting` a
      missing segment is created under the previous segment (under the project for the
      first); without it the walk gives up with 0. A refused creation also gives 0. */
  function GetTestSuiteId(s: Server, projectId: int, testSuiteName: string,
                          createIfNotExisting: bool): (r: Reply<int>)
    ensures Extends(s, r.server)
    ensures r.server.cases == s.cases && r.server.features == s.features
    ensures !createIfNotExisting ==> r.server.suites == s.suites
    ensures |r.server.suites| <= |s.suites| + |Split(testSuiteName, '.')|
    ensures Wellformed(s) ==> Wellformed(r.server)
    ensures Wellformed(s) && r.value != 0 ==>
      IsSuitePath(r.server.suites, r.value, projectId, Split(testSuiteName, '.'))
    ensures Wellformed(s) && createIfNotExisting && r.value == 0 ==> RefusedLastCreate(s, r.server)
  {
    var segments := Split(testSuiteName, '.');
    var first := GetFirstLevelTestSuitesForTestProject(s, projectId);
    var r := Walk(first.server, projectId, segments, first.value, 0, createIfNotExisting);
    ExtendsTransitive(s, first.server, r.server);
    assert Wellformed(s) ==>
      && Wellformed(r.server)
      && (r.value != 0 ==> IsSuitePath(r.server.suites, r.value, projectId, segments))
      && (createIfNotExisting && r.value == 0 ==> RefusedLastCreate(first.server, r.server))
    by {
      if Wellformed(s) {
        WalkFindsPath(first.server, projectId, segments, first.value, 0, createIfNotExisting, []);
        assert [] + segments == segments;
        if createIfNotExisting {
          WalkZeroMeansRefused(first.server, projectId, segments, first.value, 0);
        }
      }
    }
    r
  }

  /** The source's `for` loop, one segment per call. `parent` is both the id resolved for
      the previous segment and the parent for a creation (0 before the first segment); after
      each resolved segment the children of its suite become the next level. */
  function Walk(s: Server, projectId: int, segments: seq<string>, level: seq<Suite>,
                parent: int, create: bool): (r: Reply<int>)
    ensures Extends(s, r.server)
    ensures r.server.cases == s.cases && r.server.features == s.features
    ensures !create ==> r.server.suites == s.suites
    ensures |r.server.suites| <= |s.suites| + |segments|
    decreases |segments|
  {
    if |segments| == 0 then Reply(parent, s)
    else
      var step := ResolveSegment(s, projectId, segments[0], level, parent, create);
      if step.value.None? then Reply(0, step.server)
      else
        var children := GetTestSuitesForTestSuite(step.server, step.value.value);
        var r := Walk(children.server, projectId, segments[1..], children.value,
                      step.value.value, create);
        ExtendsTransitive(s, step.server, children.server);
        ExtendsTransitive(s, children.server, r.server);
        r
  }

  /** One iteration: the first suite of `level` named `name`, else a new suite of that name
      under the previous segment's suite (when creation is allowed and the server accepts
      it). `None` ends the walk with 0. */
  function ResolveSegment(s: Server, projectId: int, name: string, level: seq<Suite>,
                          parent: int, create: bool): (r: Reply<Option<int>>)
    ensures Extends(s, r.server)
    ensures r.server.cases == s.cases && r.server.features == s.features
    ensures r.server.refusedNames == s.refusedNames
    ensures r.server.suites == s.suites || (create && r.server.suites == s.suites
      + [Suite(s.nextId, name, projectId, FoundOr(level, name, parent))] && r.value == Some(s.nextId)
      && r.server.nextId == s.nextId + 1)
    ensures r.server.suites == s.suites ==> r.server.nextId == s.nextId
    ensures r.server.suites == s.suites && r.value.Some? ==>
      && r.server == s
      && r.value.value != 0
      && exists k :: IsFirst(level, k, (t: Suite) => t.name == name) && level[k].id == r.value.value
    ensures r.value.None? ==> (!create && r.server == s) || (create && RefusedLastCreate(s, r.server))
    ensures forall k :: IsFirst(level, k, (t: Suite) => t.name == name) && level[k].id != 0 ==>
      r == Reply(Some(level[k].id), s)
    ensures create && name !in s.refusedNames && (forall k :: 0 <= k < |level| ==> level[k].name != name) ==>
      r.value == Some(s.nextId)
  {
    var hit := FirstIndex(level, (t: Suite) => t.name == name);
    var found := if hit.Some? then level[hit.value].id else 0;
    if found != 0 then Reply(Some(found), s)
    else if !create then Reply(None, s)
    else
      var created := CreateTestSuite(s, projectId, name, "", FoundOr(level, name, parent));
      if created.value.status then Reply(Some(created.value.id), created.server)
      else Reply(None, created.server)
  }

  /** `parentTestSuiteId` at the point of a creation: the id of a suite matched by name
      (only ever 0 here), else the previous segment's id. */
  function FoundOr(level: seq<Suite>, name: string, parent: int): int {
    var hit := FirstIndex(level, (t: Suite) => t.name == name);
    if hit.Some? then level[hit.value].id else parent
  }

  /** The walk ended on a creation the server refused. */
  ghost predicate RefusedLastCreate(s: Server, s': Server) {
    |s'.log| > 0 && s'.log[|s'.log| - 1].NewSuite? && s'.log[|s'.log| - 1].name in s.refusedNames
  }

  /** The first suite stored with that id. */
  function SuiteById(suites: seq<Suite>, id: int): Option<Suite> {
    match FirstIndex(suites, (t: Suite) => t.id == id)
    case Some(i) => Some(suites[i])
    case None => None
  }

  /** The chain of suites from a first-level suite down to suite `id`, following parent ids. */
  function Lineage(suites: seq<Suite>, id: int): seq<Suite>
    decreases if id > 0 then id else 0
  {
    if id <= 0 then []
    else
      match SuiteById(suites, id)
      case None => []
      case Some(t) => if 0 < t.parentId < id then Lineage(suites, t.parentId) + [t] else [t]
  }

  /** Suite `id` exists and is reached from a first-level suite of project `projectId`
      through stored suites named, level by level, `names`. */
  ghost predicate IsSuitePath(suites: seq<Suite>, id: int, projectId: int, names: seq<string>) {
    var line := Lineage(suites, id);
    && |line| == |names| > 0
    && line[|line| - 1].id == id
    && line[0].parentId == 0 && line[0].projectId == projectId
    && (forall k :: 0 <= k < |line| ==> line[k] in suites && line[k].name == names[k])
    && (forall k :: 0 <= k < |line| - 1 ==> line[k + 1].parentId == line[k].id)
  }

  lemma FirstIndexAppend<T>(xs: seq<T>, x: T, p: T -> bool)
    requires !p(x)
    ensures FirstIndex(xs + [x], p) == FirstIndex(xs, p)
  {
    var r := FirstIndex(xs + [x], p);
    var q := FirstIndex(xs, p);
    if q.Some? {
      assert IsFirst(xs + [x], q.value, p);
      assert r.Some?;
    }
    if r.Some? {
      assert (xs + [x])[r.value] == xs[r.value];
      assert IsFirst(xs, r.value, p);
    }
  }

  /** Appending a suite with a larger id leaves every existing chain as it was. */
  lemma {:induction false} LineageAppend(suites: seq<Suite>, x: Suite, id: int)
    requires id < x.id
    ensures Lineage(suites + [x], id) == Lineage(suites, id)
    decreases if id > 0 then id else 0
  {
    if id > 0 {
      FirstIndexAppend(suites, x, (t: Suite) => t.id == id);
      match FirstIndex(suites, (t: Suite) => t.id == id)
      case None =>
      case Some(i) =>
        assert (suites + [x])[i] == suites[i];
        var t := suites[i];
        if 0 < t.parentId < id {
          LineageAppend(suites, x, t.parentId);
        }
    }
  }

  /** In well-formed storage a suite is the one found by its id. */
  lemma SuiteByIdMember(suites: seq<Suite>, nextId: int, c: Suite)
    requires SuitesWellformed(suites, nextId)
    requires c in suites
    ensures SuiteById(suites, c.id) == Some(c)
  {
    var j :| 0 <= j < |suites| && suites[j] == c;
    var hit := FirstIndex(suites, (t: Suite) => t.id == c.id);
    assert hit.Some?;
    var i := hit.value;
    assert suites[i].id == c.id;
  }

  /** Every chain is made of stored suites, each the child of the one before it, and ends
      at the suite asked for. */
  lemma {:induction false} LineageShape(suites: seq<Suite>, id: int)
    ensures var line := Lineage(suites, id);
      && (|line| > 0 ==> line[|line| - 1].id == id)
      && (forall k :: 0 <= k < |line| ==> line[k] in suites)
      && (forall k :: 0 <= k < |line| - 1 ==> line[k + 1].parentId == line[k].id)
    decreases if id > 0 then id else 0
  {
    if id > 0 {
      match FirstIndex(suites, (t: Suite) => t.id == id)
      case None =>
      case Some(i) =>
        var t := suites[i];
        if 0 < t.parentId < id {
          LineageShape(suites, t.parentId);
          var up := Lineage(suites, t.parentId);
          assert Lineage(suites, id) == up + [t];
        }
    }
  }

  /** A stored suite's chain is its parent's chain with the suite added at the end. */
  lemma LineageOfChild(suites: seq<Suite>, nextId: int, c: Suite)
    requires SuitesWellformed(suites, nextId)
    requires c in suites && c.parentId > 0
    ensures Lineage(suites, c.id) == Lineage(suites, c.parentId) + [c]
  {
    SuiteByIdMember(suites, nextId, c);
  }

  /** A stored first-level suite is a chain by itself. */
  lemma LineageOfRoot(suites: seq<Suite>, nextId: int, c: Suite)
    requires SuitesWellformed(suites, nextId)
    requires c in suites && c.parentId == 0
    ensures Lineage(suites, c.id) == [c]
  {
    SuiteByIdMember(suites, nextId, c);
  }

  /** What holds before each iteration: no segment consumed and the project's first level
      in hand, or the consumed segments resolved to `parent` and its children in hand. */
  ghost predicate WalkState(s: Server, projectId: int, level: seq<Suite>, parent: int,
                            done: seq<string>)
  {
    && Wellformed(s)
    && (done == [] ==>
          && parent == 0
          && forall k :: 0 <= k < |level| ==>
               level[k] in s.suites && level[k].parentId == 0 && level[k].projectId == projectId)
    && (done != [] ==>
          && IsSuitePath(s.suites, parent, projectId, done)
          && forall k :: 0 <= k < |level| ==> level[k] in s.suites && level[k].parentId == parent)
  }

  /** Adding segment `name` resolved to the stored suite `c` extends the resolved path. */
  lemma StepPath(s: Server, projectId: int, level: seq<Suite>, parent: int,
                 done: seq<string>, c: Suite, name: string)
    requires WalkState(s, projectId, level, parent, done)
    requires c in s.suites && c.name == name
    requires done == [] ==> c.parentId == 0 && c.projectId == projectId
    requires done != [] ==> c.parentId == parent
    ensures IsSuitePath(s.suites, c.id, projectId, done + [name])
  {
    var line := Lineage(s.suites, c.id);
    if done == [] {
      LineageOfRoot(s.suites, s.nextId, c);
    } else {
      var up := Lineage(s.suites, parent);
      assert up[0].id > 0;
      assert parent > 0 by { assert up[|up| - 1] in s.suites; }
      LineageOfChild(s.suites, s.nextId, c);
      assert line == up + [c];
      assert forall k :: 0 <= k < |up| ==> line[k] == up[k];
    }
  }

  /** Creating suite `x` keeps well-formedness and every resolved path. */
  lemma CreatePreserves(s: Server, s': Server, projectId: int, parent: int, done: seq<string>,
                        x: Suite)
    requires Wellformed(s)
    requires x.id == s.nextId && x.parentId < x.id
    requires s' == s.(suites := s.suites + [x], nextId := s.nextId + 1, log := s'.log)
    requires done != [] ==> IsSuitePath(s.suites, parent, projectId, done)
    ensures Wellformed(s')
    ensures done != [] ==> IsSuitePath(s'.suites, parent, projectId, done)
  {
    if done != [] {
      var line := Lineage(s.suites, parent);
      assert line[|line| - 1] in s.suites;
      LineageAppend(s.suites, x, parent);
    }
  }

  /** Walk soundness: a non-zero result is the end of a stored chain whose names are the
      segments consumed so far followed by the remaining ones. */
  lemma {:induction false} WalkFindsPath(s: Server, projectId: int, segments: seq<string>,
                                         level: seq<Suite>, parent: int, create: bool,
                                         done: seq<string>)
    requires WalkState(s, projectId, level, parent, done)
    ensures var r := Walk(s, projectId, segments, level, parent, create);
      && Wellformed(r.server)
      && (r.value != 0 ==> IsSuitePath(r.server.suites, r.value, projectId, done + segments))
    decreases |segments|
  {
    if |segments| == 0 {
      assert done + segments == done;
    } else {
      var name := segments[0];
      var step := ResolveSegment(s, projectId, name, level, parent, create);
      assert done + segments == (done + [name]) + segments[1..];
      StepKeepsPath(s, projectId, level, parent, done, name, create);
      if step.value.Some? {
        var id := step.value.value;
        var children := GetTestSuitesForTestSuite(step.server, id);
        assert Walk(s, projectId, segments, level, parent, create)
            == Walk(children.server, projectId, segments[1..], children.value, id, create);
        DescendState(step.server, projectId, id, done + [name]);
        WalkFindsPath(children.server, projectId, segments[1..], children.value, id, create,
                      done + [name]);
      }
    }
  }

  /** One resolved segment extends the resolved path by that segment. */
  lemma StepKeepsPath(s: Server, projectId: int, level: seq<Suite>, parent: int,
                      done: seq<string>, name: string, create: bool)
    requires WalkState(s, projectId, level, parent, done)
    ensures var step := ResolveSegment(s, projectId, name, level, parent, create);
      && Wellformed(step.server)
      && (step.value.Some? ==>
            IsSuitePath(step.server.suites, step.value.value, projectId, done + [name]))
  {
    var step := ResolveSegment(s, projectId, name, level, parent, create);
    if step.server.suites == s.suites {
      if step.value.Some? {
        var k :| IsFirst(level, k, (t: Suite) => t.name == name) && level[k].id == step.value.value;
        StepPath(s, projectId, level, parent, done, level[k], name);
      }
    } else {
      var hit := FirstIndex(level, (t: Suite) => t.name == name);
      assert FoundOr(level, name, parent) == parent;
      var x := Suite(s.nextId, name, projectId, parent);
      assert parent < s.nextId by {
        if done != [] {
          var line := Lineage(s.suites, parent);
          assert line[|line| - 1] in s.suites;
        }
      }
      CreatePreserves(s, step.server, projectId, parent, done, x);
      assert x in step.server.suites;
      StepPath(step.server, projectId, [], parent, done, x, name);
    }
  }

  /** After a resolved segment the children of its suite are the next level. */
  lemma DescendState(s: Server, projectId: int, id: int, done: seq<string>)
    requires Wellformed(s) && done != []
    requires IsSuitePath(s.suites, id, projectId, done)
    ensures var children := GetTestSuitesForTestSuite(s, id);
      WalkState(children.server, projectId, children.value, id, done)
  {
  }

  /** With creation enabled, the only way to get 0 is a creation the server refused, and it
      is the last request made. */
  lemma {:induction false} WalkZeroMeansRefused(s: Server, projectId: int, segments: seq<string>,
                                                level: seq<Suite>, parent: int)
    requires s.nextId > 0
    requires |segments| > 0 || parent != 0
    ensures var r := Walk(s, projectId, segments, level, parent, true);
      r.value == 0 ==> RefusedLastCreate(s, r.server)
    decreases |segments|
  {
    if |segments| > 0 {
      var step := ResolveSegment(s, projectId, segments[0], level, parent, true);
      if step.value.Some? {
        var children := GetTestSuitesForTestSuite(step.server, step.value.value);
        WalkZeroMeansRefused(children.server, projectId, segments[1..], children.value,
                             step.value.value);
      }
    }
  }

  /** A path that resolves without creation resolves identically with creation enabled:
      existing suites are never created again and the same requests are made. */
  lemma {:induction false} CreationOnlyWhenMissing(s: Server, projectId: int, testSuiteName: string)
    requires GetTestSuiteId(s, projectId, testSuiteName, false).value != 0
    ensures GetTestSuiteId(s, projectId, testSuiteName, true)
         == GetTestSuiteId(s, projectId, testSuiteName, false)
  {
    var first := GetFirstLevelTestSuitesForTestProject(s, projectId);
    WalkAgrees(first.server, projectId, Split(testSuiteName, '.'), first.value, 0);
  }

  lemma {:induction false} WalkAgrees(s: Server, projectId: int, segments: seq<string>,
                                      level: seq<Suite>, parent: int)
    requires Walk(s, projectId, segments, level, parent, false).value != 0
    ensures Walk(s, projectId, segments, level, parent, true)
         == Walk(s, projectId, segments, level, parent, false)
    decreases |segments|
  {
    if |segments| > 0 {
      var step := ResolveSegment(s, projectId, segments[0], level, parent, false);
      assert step == ResolveSegment(s, projectId, segments[0], level, parent, true);
      var children := GetTestSuitesForTestSuite(step.server, step.value.value);
      WalkAgrees(children.server, projectId, segments[1..], children.value, step.value.value);
    }
  }

  /** No two stored suites under the same parent share a name; two first-level suites may
      only when they belong to different projects. Without this a path may name two suites,
      and the walk takes whichever is stored first. */
  ghost predicate SiblingNamesDistinct(suites: seq<Suite>) {
    forall i, j :: 0 <= i < j < |suites| && suites[i].name == suites[j].name
                   && suites[i].parentId == suites[j].parentId ==>
      suites[i].parentId == 0 && suites[i].projectId != suites[j].projectId
  }

  /** Two stored siblings with one name are one suite. */
  lemma SameSibling(suites: seq<Suite>, x: Suite, y: Suite)
    requires SiblingNamesDistinct(suites) && x in suites && y in suites
    requires x.name == y.name && x.parentId == y.parentId
    requires x.parentId == 0 ==> x.projectId == y.projectId
    ensures x == y
  {
    var i :| 0 <= i < |suites| && suites[i] == x;
    var j :| 0 <= j < |suites| && suites[j] == y;
    assert !(i < j) && !(j < i);
  }

  /** `level` holds stored suites that are all children of `parentId`, or, for 0, all
      first-level suites of `projectId`. */
  ghost predicate LevelOf(s: Server, level: seq<Suite>, parentId: int, projectId: int) {
    forall k :: 0 <= k < |level| ==>
      level[k] in s.suites && level[k].parentId == parentId
      && (parentId == 0 ==> level[k].projectId == projectId)
  }

  /** A level holding a stored suite with a non-zero id resolves that suite's name to it,
      with no request. */
  lemma SegmentFollowsPath(s: Server, projectId: int, level: seq<Suite>, parent: int,
                           create: bool, x: Suite)
    requires SiblingNamesDistinct(s.suites) && x.id != 0
    requires x in level && LevelOf(s, level, x.parentId, x.projectId)
    ensures ResolveSegment(s, projectId, x.name, level, parent, create) == Reply(Some(x.id), s)
  {
    var hit := FirstIndex(level, (t: Suite) => t.name == x.name);
    var j :| 0 <= j < |level| && level[j] == x;
    assert hit.Some?;
    SameSibling(s.suites, level[hit.value], x);
  }

  /** The children fetched for a suite form its level, and hold every stored child. */
  lemma ChildrenLevel(s: Server, x: Suite, y: Suite)
    requires y in s.suites && y.parentId == x.id && x.id != 0
    ensures var children := GetTestSuitesForTestSuite(s, x.id);
      y in children.value && LevelOf(children.server, children.value, y.parentId, y.projectId)
  {
    var i :| 0 <= i < |s.suites| && s.suites[i] == y;
  }

  /** Walking the names of an existing chain of suites, starting from a level that holds its
      first suite, reaches the chain's last suite without creating anything. */
  lemma {:induction false} WalkFollowsPath(s: Server, projectId: int, segments: seq<string>,
                                           level: seq<Suite>, parent: int, create: bool,
                                           line: seq<Suite>)
    requires Wellformed(s) && SiblingNamesDistinct(s.suites)
    requires |line| == |segments| > 0
    requires forall k :: 0 <= k < |line| ==> line[k] in s.suites && line[k].name == segments[k]
    requires forall k :: 0 <= k < |line| - 1 ==> line[k + 1].parentId == line[k].id
    requires line[0] in level && LevelOf(s, level, line[0].parentId, line[0].projectId)
    ensures var r := Walk(s, projectId, segments, level, parent, create);
      r.value == line[|line| - 1].id && r.server == s.(log := r.server.log)
    decreases |segments|
  {
    var x := line[0];
    assert x.id != 0;
    SegmentFollowsPath(s, projectId, level, parent, create, x);
    var children := GetTestSuitesForTestSuite(s, x.id);
    var rest := Walk(children.server, projectId, segments[1..], children.value, x.id, create);
    assert Walk(s, projectId, segments, level, parent, create) == rest;
    if |segments| > 1 {
      ChildrenLevel(s, x, line[1]);
      WalkFollowsPath(children.server, projectId, segments[1..], children.value, x.id,
                      create, line[1..]);
    }
  }

  /** The first level fetched for a project holds every stored first-level suite of it. */
  lemma FirstLevel(s: Server, projectId: int, x: Suite)
    requires x in s.suites && x.parentId == 0 && x.projectId == projectId
    ensures var first := GetFirstLevelTestSuitesForTestProject(s, projectId);
      x in first.value && LevelOf(first.server, first.value, 0, projectId)
  {
    var i :| 0 <= i < |s.suites| && s.suites[i] == x;
  }

  /** An existing path is found, and reused without creating anything, whether or not
      creation is allowed: the answer is the id of the suite the path names. */
  lemma ExistingPathIsReused(s: Server, projectId: int, testSuiteName: string,
                             createIfNotExisting: bool, id: int)
    requires Wellformed(s) && SiblingNamesDistinct(s.suites)
    requires IsSuitePath(s.suites, id, projectId, Split(testSuiteName, '.'))
    ensures var r := GetTestSuiteId(s, projectId, testSuiteName, createIfNotExisting);
      r.value == id && r.server == s.(log := r.server.log)
  {
    var segments := Split(testSuiteName, '.');
    var line := Lineage(s.suites, id);
    var first := GetFirstLevelTestSuitesForTestProject(s, projectId);
    FirstLevel(s, projectId, line[0]);
    WalkFollowsPath(first.server, projectId, segments, first.value, 0, createIfNotExisting, line);
    assert GetTestSuiteId(s, projectId, testSuiteName, createIfNotExisting)
        == Walk(first.server, projectId, segments, first.value, 0, createIfNotExisting);
  }

  /** "Root.Child" where "Root" exists and "Child" does not: exactly one suite is created,
      "Child", under "Root", and its id is the answer. */
  lemma RootChildScenario(s: Server, projectId: int)
    requires s.suites == [Suite(1, "Root", projectId, 0)] && s.nextId == 2
    requires s.refusedNames == {}
    ensures var r := GetTestSuiteId(s, projectId, "Root.Child", true);
      && r.value == 2
      && r.server.suites == s.suites + [Suite(2, "Child", projectId, 1)]
      && r.server.log == s.log + [ListFirstLevelSuites(projectId), ListChildSuites(1),
                                  NewSuite(projectId, "Child", "", 1), ListChildSuites(2)]
  {
    var segments := ["Root", "Child"];
    assert Join(segments, '.') == "Root.Child";
    SplitJoin(segments, '.');
    var first := GetFirstLevelTestSuitesForTestProject(s, projectId);
    assert first.value == s.suites;
    var step1 := ResolveSegment(first.server, projectId, "Root", first.value, 0, true);
    assert step1 == Reply(Some(1), first.server);
    var children := GetTestSuitesForTestSuite(step1.server, 1);
    assert children.value == [];
    var step2 := ResolveSegment(children.server, projectId, "Child", [], 1, true);
    assert step2.value == Some(2);
    var grand := GetTestSuitesForTestSuite(step2.server, 2);
    assert Walk(grand.server, projectId, [], grand.value, 2, true) == Reply(2, grand.server);
    assert segments[1..][1..] == [];
    assert Walk(children.server, projectId, segments[1..], [], 1, true) == Reply(2, grand.server);
    assert Walk(first.server, projectId, segments, first.value, 0, true) == Reply(2, grand.server);
    assert grand.server.log
        == s.log + [ListFirstLevelSuites(projectId), ListChildSuites(1),
                    NewSuite(projectId, "Child", "", 1), ListChildSuites(2)];
  }
}

=== FILE: text.dfy ===
/** The few .NET string operations the adapter relies on, over `string` = `seq<char>`. */
module Text {

  /** `Environment.NewLine` on Windows, the platform the NUnit add-in targets. */
  const NewLine: string := "\r\n"

  /** `StringBuilder.AppendLine(text)`: the text followed by one line terminator. */
  function Line(text: string): (r: string)
    ensures |r| == |text| + |NewLine|
    ensures r[..|text|] == text && r[|text|..] == NewLine
  {
    text + NewLine
  }

  /** Glues `parts` back together with one `sep` between neighbours. */
  function Join(parts: seq<string>, sep: char): string
    requires |parts| >= 1
    decreases |parts|
  {
    if |parts| == 1 then parts[0] else parts[0] + [sep] + Join(parts[1..], sep)
  }

  /** `s.Split(new char[] { sep })`: every `sep` closes a piece and empty pieces are kept,
      so `""` splits into `[""]` and `"A..B"` into `["A", "", "B"]`. */
  function Split(s: string, sep: char): (parts: seq<string>)
    ensures |parts| >= 1
    ensures forall i :: 0 <= i < |parts| ==> sep !in parts[i]
    ensures Join(parts, sep) == s
    decreases |s|
  {
    if |s| == 0 then [""]
    else
      var rest := Split(s[1..], sep);
      if s[0] == sep then
        assert s == [sep] + Join(rest, sep);
        assert ([""] + rest)[1..] == rest;
        [""] + rest
      else
        var parts := [[s[0]] + rest[0]] + rest[1..];
        assert parts[1..] == rest[1..];
        assert s == [s[0]] + Join(rest, sep);
        parts
  }

  /** Splitting a piece that holds no separator, followed by a separator, peels off that piece. */
  lemma {:induction false} SplitHead(p: string, sep: char, tail: string)
    requires sep !in p
    ensures Split(p + [sep] + tail, sep) == [p] + Split(tail, sep)
    decreases |p|
  {
    if |p| == 0 {
      assert p + [sep] + tail == [sep] + tail;
      assert ([sep] + tail)[1..] == tail;
    } else {
      var s := p + [sep] + tail;
      assert s[0] == p[0];
      assert s[1..] == p[1..] + [sep] + tail;
      SplitHead(p[1..], sep, tail);
      assert [p[0]] + p[1..] == p;
    }
  }

  /** Round trip: pieces free of the separator survive a join followed by a split. */
  lemma {:induction false} SplitJoin(parts: seq<string>, sep: char)
    requires |parts| >= 1
    requires forall i :: 0 <= i < |parts| ==> sep !in parts[i]
    ensures Split(Join(parts, sep), sep) == parts
    decreases |parts|
  {
    if |parts| == 1 {
      SplitNoSep(parts[0], sep);
    } else {
      SplitJoin(parts[1..], sep);
      SplitHead(parts[0], sep, Join(parts[1..], sep));
      assert [parts[0]] + parts[1..] == parts;
    }
  }

  /** A string without the separator splits into itself alone. */
  lemma {:induction false} SplitNoSep(s: string, sep: char)
    requires sep !in s
    ensures Split(s, sep) == [s]
    decreases |s|
  {
    if |s| > 0 {
      assert sep !in s[1..] by {
        forall k | 0 <= k < |s[1..]| ensures s[1..][k] != sep {
          assert s[1..][k] == s[k + 1];
        }
      }
      SplitNoSep(s[1..], sep);
      assert [s[0]] + s[1..] == s;
    }
  }

  /** `s.LastIndexOf(c)`: the position of the last `c` in `s`, or -1 when `s` holds none. */
  function LastIndexOf(s: string, c: char): (i: int)
    ensures -1 <= i < |s|
    ensures i >= 0 ==> s[i] == c
    ensures forall j :: i < j < |s| ==> s[j] != c
    decreases |s|
  {
    if |s| == 0 then -1
    else if s[|s| - 1] == c then |s| - 1
    else LastIndexOf(s[..|s| - 1], c)
  }

  /** `Char.ToLower` on the ASCII letters; every other character is left as it is. */
  function LowerChar(ch: char): char {
    if 'A' <= ch <= 'Z' then (ch as int + 32) as char else ch
  }

  /** `s.ToLower()`, one character at a time. */
  function ToLower(s: string): (r: string)
    ensures |r| == |s|
    ensures forall i :: 0 <= i < |s| ==> r[i] == LowerChar(s[i])
  {
    seq(|s|, i requires 0 <= i < |s| => LowerChar(s[i]))
  }

  /** `s.EndsWith(suffix)`. */
  predicate EndsWith(s: string, suffix: string) {
    |suffix| <= |s| && s[|s| - |suffix|..] == suffix
  }

  /** The decimal digit for `d`. */
  function Digit(d: nat): char
    requires d < 10
  {
    "0123456789"[d]
  }

  /** The decimal representation of a natural number, most significant digit first. */
  function NatToString(n: nat): (r: string)
    ensures |r| >= 1
    ensures forall i :: 0 <= i < |r| ==> '0' <= r[i] <= '9'
    decreases n
  {
    if n < 10 then [Digit(n)] else NatToString(n / 10) + [Digit(n % 10)]
  }

  /** `Int32.ToString()`, as `string.Format("{0}", n)` prints it: a minus sign for negatives. */
  function IntToString(n: int): string {
    if n < 0 then "-" + NatToString(-n) else NatToString(n)
  }
}

=== FILE: wrappers.dfy ===
/** Failure-carrying values. `Option` stands in for a C# reference that may be null,
    `Result` for a call that either returns or throws an exception with a message. */
module Wrappers {

  datatype Option<+T> = None | Some(value: T) {

    /** The held value, or `default` when there is none. */
    function GetOr(default: T): T {
      match this
      case Some(v) => v
      case None => default
    }
  }

  datatype Result<+R, +E> = Success(value: R) | Failure(error: E)
}
